=== FILE: README.md ===
# rtl_433_tests fixture scripts in Dafny

The rtl_433_tests repository keeps, for each recorded radio capture
(`*.cu8`), a reference fixture (`*.json`): the JSON lines the rtl_433
decoder printed for that capture. Two scripts maintain those fixtures.

- `refresh_all.py` re-runs the decoder on every capture. It rewrites the
  capture's fixture with the new output and warns when the line count
  changed.
- `generate_rfraw.py` runs the decoder in analyze mode (`-A`). It extracts
  the pulse descriptors ("rfraw" strings) from the diagnostics and replays
  each one (`-y`). The cleaned events of each replay are collected into a
  `rfraw/<model>_<stem>.rfraw.json` mapping.

Both scripts build the decoder's command line with `rtl_runner.run`. Both
resolve three directory-scoped sidecar files next to the capture:

- `ignore` skips the capture;
- `samplerate` overrides the default of 250000;
- `protocol` selects a single decoder.

The model is functional:

- The filesystem is a `Snapshot`, a map from path to text.
- The decoder process is a function `Decoder` from argument vector to
  standard output, standard error and exit status.
- `json.loads` is a function `JsonParser` from text to an optional record.
- The exceptions raised by the modelled steps are `Failure` values carrying
  a `Crash` that names the cause: a malformed `samplerate` line, a missing
  fixture, non-ASCII decoder output, a marker line without `#`, a malformed
  fixture line, and a replay output line that is not an object with `time`.
  Exceptions raised by the operating system and the libraries around these
  steps are listed under "## Left out". Every early `return` is an outcome
  value.

Modules:

| file | module | contents |
|---|---|---|
| results.dfy | `Results` | `Option`, `Result`, the `Crash` causes |
| text.dfy | `Text` | the Python string operations the scripts use: `splitlines`, `"\n".join`, `split`, `strip`, `int()`, `str(int)`, `bytes.decode("ascii")` |
| paths.dfy | `Paths` | `os.path.splitext`, `os.path.dirname`, two-argument `os.path.join` |
| filesystem.dfy | `FileSystem` | the snapshot, `readline`, sidecar names and the sidecar decision |
| rtl_runner.dfy | `RtlRunner` | the decoder's argument vector |
| generate_rfraw.dfy | `GenerateRfraw` | `gather_metadata`, `extract_rfraw`, the replay accumulation, output naming, `generate` |
| refresh_all.dfy | `RefreshAll` | `convert` with its own copy of the sidecar lookup |

Three behaviours of the code are easy to misread, and the model keeps them
as written:

- `convert` reports a nonzero decoder exit but still rewrites the fixture.
- A descriptor that occurs twice in the analyze output appends its records
  to the earlier list. It does not replace them.
- A descriptor is the field between the first and the second `#` of its
  line, not everything after the first `#`.

## Model

| member | source | states |
|---|---|---|
| RtlRunner.CommandVector | bin/rtl_runner.py:4-13 | The vector starts with the command and `-c 0`. `-R protocol` is present exactly when the protocol is truthy, and it comes before `-s rate`, which is present exactly when the rate is non-zero. `-F json -r input` follow contiguously, the extra arguments are an unchanged suffix, and the length is 7 plus 2 per optional flag plus the extras |
| RtlRunner.ParseCommandVectorRoundTrip | bin/rtl_runner.py:6-13 | Reading the vector back recovers the command, input, extras and every truthy option. The vector loses nothing but falsy options |
| Text.SplitLines | bin/generate_rfraw.py:17 | No line contains a line boundary, and there are no lines exactly when the text is empty |
| Text.SplitLinesOfJoinedLines | bin/refresh_all.py:59-61 | Splitting a non-empty list of break-free lines joined with `"\n"` plus a final `"\n"` gives the list back |
| Text.SplitLinesDropsFinalNewline | bin/generate_rfraw.py:119 | One trailing `"\n"` after a text that does not already end in a line boundary adds no line |
| Text.SplitLinesOfNewlineJoin | bin/generate_rfraw.py:17 | `splitlines` of `a + "\n" + b` is the lines of `a` then those of `b`, with at most one empty line between them |
| Text.SplitOn | bin/generate_rfraw.py:19 | There is at least one field, and no field contains the separator |
| Text.JoinSplitOn | bin/generate_rfraw.py:19 | Joining the fields of `split(c)` with `c` gives the original string back |
| Text.Strip | bin/generate_rfraw.py:47 | The result neither starts nor ends with whitespace |
| Text.StripIsFramed | bin/generate_rfraw.py:47 | `strip()` returns a slice of its input with only whitespace around it, and that slice neither starts nor ends with whitespace |
| Text.StripFramed | bin/generate_rfraw.py:47 | Whitespace around a word with non-space ends is exactly what `strip()` removes |
| Text.ParseInt | bin/generate_rfraw.py:41 | A text holding an ASCII information separator (`\x1c` to `\x1f`) anywhere raises, because `int()` does not trim these. A successful parse leaves, after stripping, digits and underscores with at most one leading sign, and ends in a digit |
| Text.ParseIntOfIntToString | bin/generate_rfraw.py:41 | `int(str(n)) == n` for every integer, negative ones included, with no limit on the number of digits (see "## Left out") |
| Text.DecodeAscii | bin/generate_rfraw.py:96 | Decoding succeeds exactly when every byte is below 128. The text then has one character per byte, with the same code |
| Paths.SplitExt | bin/generate_rfraw.py:53 | Root and extension concatenate to the path. A non-empty extension is one dot followed by no dot and no slash, and the root's last component is then not all dots |
| Paths.SplitExtOfNewExtension | bin/generate_rfraw.py:71 | Adding an extension to a path with a proper stem and splitting it off again gives back the stem and that extension |
| Paths.WithExtensionRoundTrip | bin/generate_rfraw.py:53 | Swapping a fixture's `.json` for `.cu8` and back gives the fixture path again whenever its stem is proper, so `get_model_for_cu8_file` reads the fixture `generate` started from |
| Paths.DotJsonFixtureNotRecovered | bin/generate_rfraw.py:53 | A fixture named only `.json` has no stem: the round trip yields `tests/.json.json` instead |
| Paths.Dirname | bin/generate_rfraw.py:30 | The directory is a prefix of the path, and it is empty for a path without `/` |
| Paths.DirnameOfJoin | bin/generate_rfraw.py:30 | The directory of a `/`-free name joined under a directory not ending in `/` is that directory |
| Paths.PathJoin | bin/generate_rfraw.py:32 | The joined path ends with the second component. An absolute second component replaces the first. A relative one is appended to the first, with a `/` between them exactly when the first is non-empty and does not already end in `/` |
| Paths.DirnameOfWithExtension | bin/refresh_all.py:16-21 | Replacing the extension does not change the directory, so a capture and its fixture share their sidecars |
| FileSystem.FirstLine | bin/generate_rfraw.py:41 | `readline()` returns a prefix of the text. With a newline present, that prefix ends at the first newline, which it includes; without one it is the whole text |
| FileSystem.FirstLineOfTerminated | bin/generate_rfraw.py:41 | `readline()` returns the text up to and including the first newline |
| GenerateRfraw.GatherMetadata | bin/generate_rfraw.py:24-49 | A missing capture is reported first, then an `ignore` marker. Otherwise the capture always resolves when there is no `samplerate` file, with rate 250000. With one, the rate is its parsed first line, and a malformed line raises. The protocol is absent without a `protocol` file and the stripped first line with one |
| GenerateRfraw.SkippedCaptureTriple | bin/generate_rfraw.py:26-35 | A missing or ignored capture yields `(False, None, None)` |
| GenerateRfraw.SampleRateSidecarRead | bin/generate_rfraw.py:37-41 | A `samplerate` file whose first line is a decimal number sets the rate to that number, with no limit on the number of digits (see "## Left out") |
| GenerateRfraw.ProtocolSidecarRead | bin/generate_rfraw.py:43-47 | A `protocol` file whose first line is a word padded with whitespace selects exactly that word |
| GenerateRfraw.SidecarDirectoryOfWalkedFixture | bin/generate_rfraw.py:70-72 | For a fixture found in directory `root`, the sidecars are looked up in `root` itself |
| GenerateRfraw.SidecarsAreDirectoryScoped | bin/generate_rfraw.py:30-47 | Two present captures in the same directory resolve identically |
| GenerateRfraw.GatherMetadataFrame | bin/generate_rfraw.py:24-49 | The lookup depends on nothing but the capture and its three sidecar files |
| GenerateRfraw.Descriptor | bin/generate_rfraw.py:19 | `split("#")[1]` exists exactly when the line has a `#`, and it contains no `#` |
| GenerateRfraw.DescriptorBetweenHashes | bin/generate_rfraw.py:19 | The descriptor is the text between the first `#` and the next `#`, or the end of the line |
| GenerateRfraw.RfrawLines | bin/generate_rfraw.py:18 | The kept lines are exactly the input lines containing `view at http` |
| GenerateRfraw.RfrawLinesAppend | bin/generate_rfraw.py:18 | The filter keeps order: filtering a concatenation is concatenating the filtered parts |
| GenerateRfraw.MapDescriptors | bin/generate_rfraw.py:19 | The map succeeds exactly when every line has a `#`. It then gives one descriptor per line, position by position |
| GenerateRfraw.ExtractRfraw | bin/generate_rfraw.py:16-21 | Extraction fails exactly when a marker line lacks `#`. Otherwise it gives one `#`-free descriptor per marker line, in order, and no other line contributes |
| GenerateRfraw.ExtractRfrawOfNewlineJoin | bin/generate_rfraw.py:16-21 | Extracting from `a + "\n" + b` gives the descriptors of `a` followed by those of `b`, and fails when either part fails |
| GenerateRfraw.ExtractRfrawSingleLine | bin/generate_rfraw.py:16-21 | A single marker line with one `#` yields exactly the text after the `#` |
| GenerateRfraw.AnalyzeDescriptors | bin/generate_rfraw.py:96-97 | Non-ASCII diagnostics raise before extraction is tried. ASCII diagnostics succeed exactly when `extract_rfraw` of the decoded text does, and then give its descriptors, each `#`-free. The only other failure is a marker line without `#` |
| GenerateRfraw.ReplayText | bin/generate_rfraw.py:110 | The output decodes exactly when it is ASCII. The result is a slice of the decoded text with only whitespace around it, and it has no whitespace at either end |
| GenerateRfraw.ReplayTextOfTerminated | bin/generate_rfraw.py:110 | For output that is a text with non-whitespace ends followed by one newline, `strip()` removes exactly that newline |
| GenerateRfraw.CleanRecord | bin/generate_rfraw.py:121-122 | Cleaning succeeds exactly when the line parses to an object with `time`. The result is that object with `time` removed and every other field unchanged |
| GenerateRfraw.CleanLines | bin/generate_rfraw.py:119-123 | Every output line is cleaned in order, and any line that raises aborts the whole |
| GenerateRfraw.Contribution | bin/generate_rfraw.py:110-113 | Non-ASCII output raises. An output that is empty after stripping is skipped without raising and adds nothing. A successful replay adds records exactly when its stripped output is non-empty |
| GenerateRfraw.ContributionOfLines | bin/generate_rfraw.py:110-123 | A replay that prints break-free lines, each followed by a newline, contributes the cleaned records of exactly those lines. The first line must be non-empty and not start with whitespace, and the last must be non-empty and not end with whitespace, since `strip()` would otherwise change them. The final newline is stripped and adds no empty line |
| GenerateRfraw.ContributionOfSingleRecord | bin/generate_rfraw.py:110-123 | A replay that prints one JSON object with `time` contributes that object without `time`, and nothing else |
| GenerateRfraw.ContributionsMeaning | bin/generate_rfraw.py:106-123 | The replays' contributions exist exactly when no replay raises. They are then each replay's own contribution, in order |
| GenerateRfraw.ContributionsFirstCrash | bin/generate_rfraw.py:106-123 | A failing accumulation carries the exception of the first replay that raises |
| GenerateRfraw.ProductiveMeaning | bin/generate_rfraw.py:111-117 | A descriptor becomes a key exactly when one of its replays contributed records |
| GenerateRfraw.CollectOutputs | bin/generate_rfraw.py:105-123 | The loop succeeds exactly when no replay raises, and otherwise fails with the first exception. The mapping's keys are the productive descriptors, and each value is all records for that descriptor in replay order |
| GenerateRfraw.CollectStep | bin/generate_rfraw.py:114-123 | One loop turn keeps the mapping equal to the reference accumulation |
| GenerateRfraw.RecordsForAbsent | bin/generate_rfraw.py:114-117 | A descriptor no replay produced output for has no records |
| GenerateRfraw.ContributionsTimeFree | bin/generate_rfraw.py:122 | No contributed record keeps a `time` field |
| GenerateRfraw.CollectedTimeFree | bin/generate_rfraw.py:105-123 | No record in the written mapping has a `time` field |
| GenerateRfraw.DuplicateDescriptorAppends | bin/generate_rfraw.py:114-117 | A repeated descriptor keeps the records of both replays, first one first |
| GenerateRfraw.ExpectedModel | bin/generate_rfraw.py:52-66 | The model is absent exactly when the fixture next to the capture has no lines. An unreadable fixture raises. Otherwise the model is the `model` field of the first line, and a first line that is not an object with `model` raises |
| GenerateRfraw.OutputPath | bin/generate_rfraw.py:126-128 | The output path is `rfraw/<model>_<fixture stem>.rfraw.json` for any model whose text is not an absolute path. An absolute model text replaces the `rfraw` directory |
| GenerateRfraw.AnalyzeVector | bin/generate_rfraw.py:88-90 | The analyze run reads back as the capture with its resolved rate and protocol (falsy ones dropped) and the single extra flag `-A` |
| GenerateRfraw.AdmitFixture | bin/generate_rfraw.py:69-85 | A missing capture is reported first, then an ignored one. The crashes come in the source's order: the metadata, then an unreadable fixture, then the expected model. A resolved capture goes on to analysis with its metadata and model exactly when the fixture has lines and a truthy expected model, and stops with "no expected data" otherwise |
| GenerateRfraw.Generate | bin/generate_rfraw.py:69-131 | Whatever stops before analysis, skip or crash, is the result. After analysis: a nonzero exit stops with that exit code; otherwise non-ASCII diagnostics or a marker line without `#` raise, then the first replay that raises gives the exception, and otherwise the mapping is written. A written mapping is named after the model and the fixture's stem, equals the reference accumulation of the `-y` replays of the extracted descriptors, and holds no `time` fields |
| RefreshAll.ResolveSidecarsAgrees | bin/refresh_all.py:16-36 | `convert`'s inline sidecar lookup decides exactly as `gather_metadata` does on the capture |
| RefreshAll.ConvertVector | bin/refresh_all.py:44 | The refresh run reads back as the capture with its resolved rate and protocol (falsy ones dropped) and no extra arguments |
| RefreshAll.OutputLines | bin/refresh_all.py:50-51 | The output decodes exactly when it is ASCII. There are no lines exactly when the output is empty, and no line contains a line boundary |
| RefreshAll.OutputLinesOfJoinedLines | bin/refresh_all.py:50-51 | A decoder that prints break-free lines, each followed by a newline, gives back exactly those lines |
| RefreshAll.Serialize | bin/refresh_all.py:59-61 | The written text always ends in a newline. No lines leave a lone newline, and one line is written followed by a newline |
| RefreshAll.Convert | bin/refresh_all.py:13-61 | A missing capture is reported before an ignored one. The crashes come in the source's order: a malformed `samplerate`, then an unreadable fixture, then non-ASCII output. The fixture is rewritten exactly when the capture resolves, the fixture exists and the output is ASCII. The text written is the new lines joined with `"\n"` plus one final `"\n"`, nothing else changes, and the warning fires exactly when the line counts differ |
| RefreshAll.NonzeroExitStillRewrites | bin/refresh_all.py:44-61 | A nonzero decoder exit does not prevent the rewrite |
| RefreshAll.SerializedReadsBack | bin/refresh_all.py:59-61 | Serialized lines read back as themselves. An empty list reads back as one empty line |
| RefreshAll.RewrittenReadsBack | bin/refresh_all.py:59-61 | Reading the rewritten fixture gives the new lines, or one empty line when there were none |
| RefreshAll.WriteKeepsMetadata | bin/refresh_all.py:16-36 | Rewriting the fixture does not change what the sidecars decide |
| RefreshAll.RefreshIsStable | bin/refresh_all.py:38-61 | With a decoder that answers the same way, a second refresh writes the same text. It warns exactly when the output was empty |
| RefreshAll.EmptyOutputAlwaysWarns | bin/refresh_all.py:50-61 | An empty output is stored as a lone newline. The next refresh therefore reports different data, and it stores the lone newline again |

## Left out

- The decoder process (`Popen`, `communicate`, `subprocess.run`) is a foreign call. It is a function of the argument vector, assumed to answer the same way for the same vector.
- File I/O is not modelled as effects. Reads go through the snapshot, a write yields a new snapshot, and `os.makedirs` is dropped. Text-mode newline translation is assumed to be already applied to the snapshot's texts.
- `os.walk` traversal and the `*.json` filter in `main` are left out, since their order depends on the filesystem. So are argparse and every `print`.
- `json.loads` and `json.dump` are library calls. Parsing is a parameter, and the written mapping is the model's result rather than its serialized text.
- The mapping is a Dafny `map`, which has no order. `json.dump` writes the keys in the order they were first inserted, and that order is not modelled.
- Exceptions outside the modelled steps are not `Failure` values. These are a decoder that cannot be started (`FileNotFoundError` from `Popen` or `subprocess.run`), a `UnicodeDecodeError` from a text-mode read, and failures of `os.makedirs`, of the write-mode `open`, and of `json.dump` or `write` (bin/generate_rfraw.py:125-131, bin/refresh_all.py:59-61).
- `Value` keeps only a JSON value's `str()` text and truthiness. Numbers, lists and objects as model values are not modelled further.
- `Text.ParseInt`: accepts ASCII digits only, whereas Python's `int()` also accepts other Unicode decimal digits. It also accepts any number of digits. CPython 3.11 and later, and the security releases 3.7.14, 3.8.14, 3.9.14 and 3.10.7, limit decimal conversion to 4300 digits by default. There, `int()` of a longer text and `str()` of a longer integer raise `ValueError`, so a `samplerate` line of more than 4300 digits raises at bin/generate_rfraw.py:41 and bin/refresh_all.py:30 but resolves in the model. `Text.ParseIntOfIntToString` and `GenerateRfraw.SampleRateSidecarRead` hold only below that limit on those versions. The limit depends on the interpreter version and on run-time settings (`PYTHONINTMAXSTRDIGITS`, `sys.set_int_max_str_digits`).
- `Text.Strip`: its own contract states only that the result has no whitespace at either end. The full meaning is in `Text.StripIsFramed` and `Text.StripFramed`.
- The `except e:` handler in `get_model_for_cu8_file` names an undefined variable, so any parse or key error there ends in a `NameError`. It is modelled as the `MalformedFixtureJson` failure.
- The loops at `bin/generate_rfraw.py:98-103` compute nothing and are not modelled.

=== FILE: filesystem.dfy ===
/** The filesystem as the scripts see it during one fixture's processing,
    and the vocabulary of the directory-scoped sidecar files.
 */
module FileSystem {
  import opened Results
  import opened Text
  import opened Paths

  /** The regular files that exist, each with its text as a text-mode read
      returns it (newlines already translated to `"\n"`). `os.path.isfile(p)`
      holds exactly for the keys. */
  datatype Snapshot = Snapshot(files: map<string, string>) {
    predicate IsFile(p: string) {
      p in files
    }

    /** `open(p).readline()`. */
    function ReadFirstLine(p: string): string
      requires IsFile(p)
    {
      FirstLine(files[p])
    }

    /** `open(p).read().splitlines()`; `None` stands for the failing `open`. */
    function ReadLines(p: string): Option<seq<string>> {
      if IsFile(p) then Some(SplitLines(files[p])) else None
    }

    /** The snapshot after `open(p, "w").write(text)`. */
    function Write(p: string, text: string): (fs: Snapshot)
      ensures fs.IsFile(p) && fs.files[p] == text
      ensures forall q | q != p :: q in fs.files <==> q in files
      ensures forall q | q != p && q in files :: q in fs.files && fs.files[q] == files[q]
    {
      Snapshot(files[p := text])
    }
  }

  /** `p` is a file in both snapshots with the same text, or in neither. */
  predicate SameFile(a: Snapshot, b: Snapshot, p: string) {
    && (a.IsFile(p) <==> b.IsFile(p))
    && (a.IsFile(p) ==> a.files[p] == b.files[p])
  }

  /** Writing one path leaves every other path as it was. */
  lemma WriteKeepsOthers(fs: Snapshot, p: string, text: string, q: string)
    requires q != p
    ensures SameFile(fs, fs.Write(p, text), q)
  {
  }

  /** `readline()` on a text: up to and including the first `"\n"`, or all of
      it when there is none. */
  function FirstLine(text: string): (line: string)
    ensures StartsWith(text, line)
    ensures '\n' in text ==> line != [] && line[|line| - 1] == '\n' && '\n' !in line[..|line| - 1]
    ensures '\n' !in text ==> line == text
  {
    var i := IndexOf(text, '\n');
    IndexOfFound(text, '\n');
    if i == |text| then
      assert text[..|text|] == text;
      text
    else
      assert text[..i + 1][..i] == text[..i];
      text[..i + 1]
  }

  /** `readline()` stops at the first newline. */
  lemma FirstLineOfTerminated(line: string, more: string)
    requires '\n' !in line
    ensures FirstLine(line + "\n" + more) == line + "\n"
  {
    var text := line + "\n" + more;
    assert text[..|line|] == line;
    IndexOfUnique(text, '\n', |line|);
    assert text[..|line| + 1] == line + "\n";
  }

  /** Sample rate used when the directory has no `samplerate` file. */
  const DefaultSampleRate: int := 250000

  const IgnoreName: string := "ignore"
  const SampleRateName: string := "samplerate"
  const ProtocolName: string := "protocol"

  /** Why a capture is not processed. */
  datatype SkipReason = MissingCapture | IgnoredCapture

  /** What the sidecar files decide for one capture. */
  datatype Resolution =
    | Skip(reason: SkipReason)
    | Proceed(sampleRate: int, protocol: Option<string>)
  {
    /** The `(ok, samplerate, protocol)` triple `gather_metadata` returns. */
    function AsTriple(): (bool, Option<int>, Option<string>) {
      match this
      case Skip(_) => (false, None, None)
      case Proceed(rate, protocol) => (true, Some(rate), protocol)
    }
  }

  /** The sidecar decision both scripts make for `capture`, with the sidecar
      files looked up in `dir`: a missing capture first, then the `ignore`
      marker, then the `samplerate` and `protocol` files. `None` from `int()`
      is its `ValueError`. */
  function SidecarDecision(fs: Snapshot, capture: string, dir: string): Result<Resolution> {
    if !fs.IsFile(capture) then Success(Skip(MissingCapture))
    else if fs.IsFile(PathJoin(dir, IgnoreName)) then Success(Skip(IgnoredCapture))
    else
      var rateFile := PathJoin(dir, SampleRateName);
      var rate :- if fs.IsFile(rateFile)
                  then ParseInt(fs.ReadFirstLine(rateFile)).OrCrash(MalformedSampleRate)
                  else Success(DefaultSampleRate);
      var protocolFile := PathJoin(dir, ProtocolName);
      var protocol := if fs.IsFile(protocolFile)
                      then Some(Strip(fs.ReadFirstLine(protocolFile)))
                      else None;
      Success(Proceed(rate, protocol))
  }

  /** Writing a file other than the capture and its three sidecars leaves
      the decision unchanged. */
  lemma WriteKeepsDecision(fs: Snapshot, p: string, text: string, capture: string, dir: string)
    requires p != capture
    requires p != PathJoin(dir, IgnoreName)
    requires p != PathJoin(dir, SampleRateName)
    requires p != PathJoin(dir, ProtocolName)
    ensures SidecarDecision(fs.Write(p, text), capture, dir) == SidecarDecision(fs, capture, dir)
  {
    WriteKeepsOthers(fs, p, text, capture);
    WriteKeepsOthers(fs, p, text, PathJoin(dir, IgnoreName));
    WriteKeepsOthers(fs, p, text, PathJoin(dir, SampleRateName));
    WriteKeepsOthers(fs, p, text, PathJoin(dir, ProtocolName));
  }
}

=== FILE: generate_rfraw.dfy ===
/** `generate_rfraw.py`: metadata lookup, descriptor extraction from the
    decoder's analyze-mode diagnostics, replay of each descriptor and the
    accumulation of the cleaned records into the `.rfraw.json` mapping.
 */
module GenerateRfraw {
  import opened Results
  import opened Text
  import opened Paths
  import opened FileSystem
  import opened RtlRunner

  /* ---------------------------------------------------------------------- */
  /* gather_metadata                                                        */
  /* ---------------------------------------------------------------------- */

  /** `gather_metadata(cu8_filepath)`: missing capture first, then the
      `ignore` marker, then the `samplerate` and `protocol` sidecars of the
      capture's directory. */
  function GatherMetadata(fs: Snapshot, capture: string): (r: Result<Resolution>)
    ensures !fs.IsFile(capture) ==> r == Success(Skip(MissingCapture))
    ensures fs.IsFile(capture) && fs.IsFile(PathJoin(Dirname(capture), IgnoreName))
            ==> r == Success(Skip(IgnoredCapture))
    ensures r.Success? && r.value.Proceed? ==>
            && fs.IsFile(capture)
            && !fs.IsFile(PathJoin(Dirname(capture), IgnoreName))
            && (!fs.IsFile(PathJoin(Dirname(capture), SampleRateName)) ==> r.value.sampleRate == DefaultSampleRate)
            && (!fs.IsFile(PathJoin(Dirname(capture), ProtocolName)) ==> r.value.protocol == None)
            && (fs.IsFile(PathJoin(Dirname(capture), ProtocolName)) ==>
                  r.value.protocol == Some(Strip(fs.ReadFirstLine(PathJoin(Dirname(capture), ProtocolName)))))
    ensures fs.IsFile(capture) && !fs.IsFile(PathJoin(Dirname(capture), IgnoreName))
            && !fs.IsFile(PathJoin(Dirname(capture), SampleRateName)) ==>
            r.Success? && r.value.Proceed? && r.value.sampleRate == DefaultSampleRate
    ensures fs.IsFile(capture) && !fs.IsFile(PathJoin(Dirname(capture), IgnoreName))
            && fs.IsFile(PathJoin(Dirname(capture), SampleRateName)) ==>
            match ParseInt(fs.ReadFirstLine(PathJoin(Dirname(capture), SampleRateName)))
            case None => r == Failure(MalformedSampleRate)
            case Some(n) => r.Success? && r.value.Proceed? && r.value.sampleRate == n
  {
    SidecarDecision(fs, capture, Dirname(capture))
  }

  /** `gather_metadata` reports a missing or ignored capture as
      `(False, None, None)`. */
  lemma SkippedCaptureTriple(fs: Snapshot, capture: string)
    requires !fs.IsFile(capture) || fs.IsFile(PathJoin(Dirname(capture), IgnoreName))
    ensures GatherMetadata(fs, capture).Success?
    ensures GatherMetadata(fs, capture).value.AsTriple() == (false, None, None)
  {
  }

  /** A `samplerate` file whose first line is a number written in decimal
      sets the sample rate to that number. */
  lemma SampleRateSidecarRead(fs: Snapshot, capture: string, n: int, more: string)
    requires fs.IsFile(capture) && !fs.IsFile(PathJoin(Dirname(capture), IgnoreName))
    requires var f := PathJoin(Dirname(capture), SampleRateName);
             fs.IsFile(f) && fs.files[f] == IntToString(n) + "\n" + more
    ensures GatherMetadata(fs, capture).Success?
    ensures GatherMetadata(fs, capture).value.Proceed?
    ensures GatherMetadata(fs, capture).value.sampleRate == n
  {
    var digits := IntToString(n);
    IntToStringNoNewline(n);
    var f := PathJoin(Dirname(capture), SampleRateName);
    FirstLineOfTerminated(digits, more);
    assert fs.ReadFirstLine(f) == digits + "\n";
    ParseIntNewlineTerminated(n);
    assert ParseInt(fs.ReadFirstLine(f)) == Some(n);
  }

  lemma ParseIntNewlineTerminated(n: int)
    ensures ParseInt(IntToString(n) + "\n") == Some(n)
  {
    var s := IntToString(n);
    StripNumberLine(n);
    StripUnframed(s);
    IntToStringNoInfoSeparator(n);
    assert (s + "\n")[|s|] == '\n';
    assert forall k | 0 <= k < |s| :: (s + "\n")[k] == s[k];
    ParseIntAfterStrip(s + "\n", s);
    ParseIntOfIntToString(n);
  }

  lemma StripNumberLine(n: int)
    ensures IntToString(n) != [] && !IsSpace(IntToString(n)[0]) && !IsSpace(IntToString(n)[|IntToString(n)| - 1])
    ensures Strip(IntToString(n) + "\n") == IntToString(n)
  {
    var s := IntToString(n);
    var d := NatToString(if n < 0 then -n else n);
    assert n < 0 ==> s == "-" + d;
    assert IsSpace('\n');
    StripFramed([], s, "\n");
    assert [] + s + "\n" == s + "\n";
  }

  lemma ParseIntAfterStrip(s: string, t: string)
    requires Strip(s) == Strip(t)
    requires NoInfoSeparator(s) == NoInfoSeparator(t)
    ensures ParseInt(s) == ParseInt(t)
  {
  }

  /** A `protocol` file's first line, stripped, is the protocol. */
  lemma ProtocolSidecarRead(fs: Snapshot, capture: string, pre: string, p: string, post: string, more: string)
    requires fs.IsFile(capture) && !fs.IsFile(PathJoin(Dirname(capture), IgnoreName))
    requires GatherMetadata(fs, capture).Success?
    requires AllSpace(pre) && AllSpace(post) && '\n' !in pre + p + post
    requires p != [] && !IsSpace(p[0]) && !IsSpace(p[|p| - 1])
    requires var f := PathJoin(Dirname(capture), ProtocolName);
             fs.IsFile(f) && fs.files[f] == pre + p + post + "\n" + more
    ensures GatherMetadata(fs, capture).value.Proceed?
    ensures GatherMetadata(fs, capture).value.protocol == Some(p)
  {
    FirstLineOfTerminated(pre + p + post, more);
    StripPaddedLine(pre, p, post);
  }

  lemma StripPaddedLine(pre: string, p: string, post: string)
    requires AllSpace(pre) && AllSpace(post)
    requires p != [] && !IsSpace(p[0]) && !IsSpace(p[|p| - 1])
    ensures Strip(pre + p + post + "\n") == p
  {
    assert IsSpace('\n');
    assert AllSpace(post + "\n");
    StripFramed(pre, p, post + "\n");
    assert pre + p + (post + "\n") == pre + p + post + "\n";
  }

  /** The lookup reads nothing but the capture and the three sidecars. */
  lemma GatherMetadataFrame(a: Snapshot, b: Snapshot, capture: string)
    requires SameFile(a, b, capture)
    requires SameFile(a, b, PathJoin(Dirname(capture), IgnoreName))
    requires SameFile(a, b, PathJoin(Dirname(capture), SampleRateName))
    requires SameFile(a, b, PathJoin(Dirname(capture), ProtocolName))
    ensures GatherMetadata(a, capture) == GatherMetadata(b, capture)
  {
  }

  /** Sidecar files are directory-scoped: two captures present in the same
      directory are resolved identically. */
  lemma SidecarsAreDirectoryScoped(fs: Snapshot, c1: string, c2: string)
    requires fs.IsFile(c1) && fs.IsFile(c2)
    requires Dirname(c1) == Dirname(c2)
    ensures GatherMetadata(fs, c1) == GatherMetadata(fs, c2)
  {
  }

  /* ---------------------------------------------------------------------- */
  /* extract_rfraw                                                          */
  /* ---------------------------------------------------------------------- */

  /** The phrase marking a diagnostic line that carries a descriptor. */
  const Marker: string := "view at http"

  predicate IsRfrawLine(line: string) {
    Contains(line, Marker)
  }

  /** `line.split("#")[1]`; `None` stands for the `IndexError` on a line
      without `#`. */
  function Descriptor(line: string): (r: Option<string>)
    ensures r.Some? <==> '#' in line
    ensures r.Some? ==> '#' !in r.value
  {
    var fields := SplitOn(line, '#');
    SplitOnHasSecondField(line, '#');
    if |fields| >= 2 then Some(fields[1]) else None
  }

  /** The descriptor is the text between the first and the second `#` of the
      line (or the end of the line when there is no second one). */
  lemma DescriptorBetweenHashes(line: string)
    requires '#' in line
    ensures var i := IndexOf(line, '#');
            var rest := line[i + 1..];
            Descriptor(line) == Some(rest[..IndexOf(rest, '#')])
  {
    IndexOfFound(line, '#');
    var i := IndexOf(line, '#');
    var rest := line[i + 1..];
    assert SplitOn(line, '#')[1] == SplitOn(rest, '#')[0];
    FirstFieldOfSplit(rest, '#');
  }

  lemma FirstFieldOfSplit(s: string, c: char)
    ensures SplitOn(s, c)[0] == s[..IndexOf(s, c)]
  {
    if IndexOf(s, c) == |s| {
      assert s[..|s|] == s;
    }
  }

  /** The diagnostic lines carrying a descriptor, in order (the `filter`). */
  function RfrawLines(lines: seq<string>): (r: seq<string>)
    ensures forall x :: x in r <==> x in lines && IsRfrawLine(x)
    ensures |r| <= |lines|
    decreases |lines|
  {
    if lines == [] then []
    else
      assert forall x :: x in lines <==> x == lines[0] || x in lines[1..];
      (if IsRfrawLine(lines[0]) then [lines[0]] else []) + RfrawLines(lines[1..])
  }

  /** The filter distributes over concatenation. */
  lemma {:induction false} RfrawLinesAppend(xs: seq<string>, ys: seq<string>)
    ensures RfrawLines(xs + ys) == RfrawLines(xs) + RfrawLines(ys)
    decreases |xs|
  {
    if xs == [] {
      assert xs + ys == ys;
    } else {
      assert (xs + ys)[1..] == xs[1..] + ys;
      assert (xs + ys)[0] == xs[0];
      RfrawLinesAppend(xs[1..], ys);
    }
  }

  /** `split("#")[1]` of each line (the `map`), or `None` when one raises. */
  function MapDescriptors(lines: seq<string>): (r: Option<seq<string>>)
    ensures r.Some? <==> forall k | 0 <= k < |lines| :: '#' in lines[k]
    ensures r.Some? ==> |r.value| == |lines|
    ensures r.Some? ==> forall k | 0 <= k < |lines| :: Descriptor(lines[k]) == Some(r.value[k])
    decreases |lines|
  {
    if lines == [] then Some([])
    else
      assert forall k | 1 <= k < |lines| :: lines[k] == lines[1..][k - 1];
      var d := Descriptor(lines[0]);
      var ds := MapDescriptors(lines[1..]);
      if d.Some? && ds.Some? then Some([d.value] + ds.value) else None
  }

  /** Both results present, concatenated; absent when either is. */
  function ConcatBoth(a: Option<seq<string>>, b: Option<seq<string>>): Option<seq<string>> {
    if a.Some? && b.Some? then Some(a.value + b.value) else None
  }

  lemma {:induction false} MapDescriptorsAppend(xs: seq<string>, ys: seq<string>)
    ensures MapDescriptors(xs + ys) == ConcatBoth(MapDescriptors(xs), MapDescriptors(ys))
    decreases |xs|
  {
    if xs == [] {
      assert xs + ys == ys;
      assert MapDescriptors(ys).Some? ==> [] + MapDescriptors(ys).value == MapDescriptors(ys).value;
    } else {
      var zs := xs + ys;
      assert zs[1..] == xs[1..] + ys;
      assert zs[0] == xs[0];
      MapDescriptorsAppend(xs[1..], ys);
      var d := Descriptor(xs[0]);
      var a := MapDescriptors(xs[1..]);
      var b := MapDescriptors(ys);
      if d.Some? && a.Some? && b.Some? {
        assert [d.value] + (a.value + b.value) == ([d.value] + a.value) + b.value;
      }
    }
  }

  /** Filter then map, over already split lines. */
  function ExtractLines(lines: seq<string>): Option<seq<string>> {
    MapDescriptors(RfrawLines(lines))
  }

  /** `extract_rfraw(input_text)`: `None` stands for the `IndexError` of a
      marker line without `#`. It fails exactly when a marker line lacks a
      `#`; otherwise there is one descriptor per marker line, in order, each
      the `#`-delimited field of its line, and no other line contributes. */
  function ExtractRfraw(text: string): (r: Option<seq<string>>)
    ensures r.Some? <==> forall line | line in SplitLines(text) && IsRfrawLine(line) :: '#' in line
    ensures var marked := RfrawLines(SplitLines(text));
            r.Some? ==>
              && |r.value| == |marked|
              && forall k | 0 <= k < |marked| ::
                   && Descriptor(marked[k]) == Some(r.value[k])
                   && '#' !in r.value[k]
  {
    var marked := RfrawLines(SplitLines(text));
    assert (forall k | 0 <= k < |marked| :: '#' in marked[k])
       <==> (forall line | line in marked :: '#' in line);
    ExtractLines(SplitLines(text))
  }

  lemma ExtractLinesAppend(xs: seq<string>, ys: seq<string>)
    ensures ExtractLines(xs + ys) == ConcatBoth(ExtractLines(xs), ExtractLines(ys))
  {
    RfrawLinesAppend(xs, ys);
    MapDescriptorsAppend(RfrawLines(xs), RfrawLines(ys));
  }

  /** An empty line carries no marker and contributes nothing. */
  lemma ExtractLinesEmptyLine()
    ensures ExtractLines([""]) == Some([])
  {
    assert !IsRfrawLine("");
    assert RfrawLines([""]) == [];
  }

  /** Extraction distributes over texts joined by a newline: each line of
      either part contributes what it would on its own. */
  lemma ExtractRfrawOfNewlineJoin(a: string, b: string)
    ensures ExtractRfraw(a + "\n" + b) == ConcatBoth(ExtractRfraw(a), ExtractRfraw(b))
  {
    SplitLinesOfNewlineJoin(a, b);
    var la := SplitLines(a);
    var lb := SplitLines(b);
    if SplitLines(a + "\n" + b) == la + lb {
      ExtractLinesAppend(la, lb);
    } else {
      ExtractLinesAppend(la + [""], lb);
      ExtractLinesAppend(la, [""]);
      ExtractLinesEmptyLine();
      var x := ExtractLines(la);
      assert x.Some? ==> x.value + [] == x.value;
    }
  }

  /** A diagnostic line with the marker and one `#` gives the text after it. */
  lemma ExtractRfrawSingleLine(prefix: string, descriptor: string)
    requires '#' !in prefix && '#' !in descriptor
    requires NoLineBreak(prefix + "#" + descriptor)
    requires Contains(prefix, Marker)
    ensures ExtractRfraw(prefix + "#" + descriptor) == Some([descriptor])
  {
    var line := prefix + "#" + descriptor;
    ContainsExtends(prefix, "#", Marker);
    ContainsExtends(prefix + "#", descriptor, Marker);
    DescriptorOfSingleHash(prefix, descriptor);
    ExtractRfrawOfLine(line, descriptor);
  }

  lemma ExtractRfrawOfLine(line: string, descriptor: string)
    requires line != [] && NoLineBreak(line) && IsRfrawLine(line)
    requires Descriptor(line) == Some(descriptor)
    ensures ExtractRfraw(line) == Some([descriptor])
  {
    SplitLinesSingle(line);
    RfrawLinesSingle(line);
    MapDescriptorsSingle(line, descriptor);
  }

  lemma RfrawLinesSingle(line: string)
    requires IsRfrawLine(line)
    ensures RfrawLines([line]) == [line]
  {
    assert [line][1..] == [];
    assert [line][0] == line;
  }

  lemma MapDescriptorsSingle(line: string, descriptor: string)
    requires Descriptor(line) == Some(descriptor)
    ensures MapDescriptors([line]) == Some([descriptor])
  {
    assert [line][1..] == [];
    assert [line][0] == line;
    assert [descriptor] + [] == [descriptor];
  }

  /** `sub in s` survives appending text to `s`. */
  lemma {:induction false} ContainsExtends(s: string, u: string, sub: string)
    requires Contains(s, sub)
    ensures Contains(s + u, sub)
    decreases |s|
  {
    if StartsWith(s, sub) {
      assert (s + u)[..|sub|] == s[..|sub|];
    } else {
      assert (s + u)[1..] == s[1..] + u;
      ContainsExtends(s[1..], u, sub);
    }
  }

  lemma DescriptorOfSingleHash(prefix: string, descriptor: string)
    requires '#' !in prefix && '#' !in descriptor
    ensures Descriptor(prefix + "#" + descriptor) == Some(descriptor)
  {
    var line := prefix + "#" + descriptor;
    assert line[..|prefix|] == prefix;
    IndexOfUnique(line, '#', |prefix|);
    var rest := line[|prefix| + 1..];
    assert rest == descriptor;
    IndexOfFound(descriptor, '#');
    assert rest[..|rest|] == descriptor;
    DescriptorBetweenHashes(line);
  }

  /* ---------------------------------------------------------------------- */
  /* JSON records and the rfraw_outputs accumulation                        */
  /* ---------------------------------------------------------------------- */

  /** A JSON value as far as these scripts look at it: strings, and every
      other value reduced to the text Python's `str()` gives it and its
      truth value. */
  datatype Value = Str(s: string) | Other(text: string, truthy: bool) {
    predicate Truthy() {
      match this
      case Str(s) => s != ""
      case Other(_, t) => t
    }

    /** The text an f-string gives the value. */
    function Display(): string {
      match this
      case Str(s) => s
      case Other(t, _) => t
    }
  }

  /** A decoded event: one JSON object. */
  type Record = map<string, Value>

  /** `json.loads` followed by the use as an object; `None` stands for the
      exceptions raised on malformed text or a value that is not an object. */
  type JsonParser = string -> Option<Record>

  const TimeKey: string := "time"

  /** `json.loads(line)` then `del json_output["time"]`. */
  function CleanRecord(line: string, parse: JsonParser): (r: Result<Record>)
    ensures r.Success? <==> parse(line).Some? && TimeKey in parse(line).value
    ensures r.Success? ==> TimeKey !in r.value
    ensures r.Success? ==> r.value.Keys == parse(line).value.Keys - {TimeKey}
    ensures r.Success? ==> forall key | key in r.value :: r.value[key] == parse(line).value[key]
  {
    match parse(line)
    case None => Failure(MalformedRecord)
    case Some(record) =>
      if TimeKey in record then Success(record - {TimeKey}) else Failure(MissingTimeField)
  }

  /** The cleaned records of every line of one replay's output, in order,
      or the first exception. */
  function CleanLines(lines: seq<string>, parse: JsonParser): (r: Result<seq<Record>>)
    ensures r.Success? <==> forall k | 0 <= k < |lines| :: CleanRecord(lines[k], parse).Success?
    ensures r.Success? ==> |r.value| == |lines|
    ensures r.Success? ==> forall k | 0 <= k < |lines| :: r.value[k] == CleanRecord(lines[k], parse).value
    decreases |lines|
  {
    if lines == [] then Success([])
    else
      var first :- CleanRecord(lines[0], parse);
      var rest :- CleanLines(lines[1..], parse);
      assert forall k | 1 <= k < |lines| :: lines[k] == lines[1..][k - 1];
      Success([first] + rest)
  }

  /** `result.stdout.decode("ascii").strip()`. */
  function ReplayText(stdout: seq<byte>): (r: Result<string>)
    ensures r.Success? <==> IsAscii(stdout)
    ensures r.Failure? ==> r.error == NonAsciiOutput
    ensures r.Success? ==> r.value == [] || (!IsSpace(r.value[0]) && !IsSpace(r.value[|r.value| - 1]))
    ensures r.Success? ==> exists i :: SpaceFramed(DecodeAscii(stdout).value, r.value, i)
  {
    var text :- DecodeAscii(stdout).OrCrash(NonAsciiOutput);
    StripIsFramed(text);
    Success(Strip(text))
  }

  /** What one replay adds under its descriptor: nothing for an empty output,
      otherwise the cleaned record of each output line. */
  function Contribution(stdout: seq<byte>, parse: JsonParser): (r: Result<seq<Record>>)
    ensures !IsAscii(stdout) ==> r == Failure(NonAsciiOutput)
    ensures ReplayText(stdout) == Success("") ==> r == Success([])
    ensures r.Success? ==> (r.value != [] <==> ReplayText(stdout) != Success(""))
  {
    var text :- ReplayText(stdout);
    if text == "" then Success([]) else CleanLines(SplitLines(text), parse)
  }

  /** `strip()` removes exactly the final newline of a newline-terminated
      text whose ends are not whitespace. */
  lemma ReplayTextOfTerminated(stdout: seq<byte>, j: string)
    requires j != [] && !IsSpace(j[0]) && !IsSpace(j[|j| - 1])
    requires DecodeAscii(stdout) == Some(j + "\n")
    ensures ReplayText(stdout) == Success(j)
  {
    assert AllSpace("\n");
    StripFramed([], j, "\n");
    assert [] + j + "\n" == j + "\n";
  }

  /** A replay that prints the given lines, one per line, contributes the
      cleaned records of exactly those lines: the trailing newline is
      stripped and does not add an empty line. */
  lemma ContributionOfLines(stdout: seq<byte>, parse: JsonParser, lines: seq<string>)
    requires lines != []
    requires forall k | 0 <= k < |lines| :: NoLineBreak(lines[k])
    requires lines[0] != [] && !IsSpace(lines[0][0])
    requires var last := lines[|lines| - 1]; last != [] && !IsSpace(last[|last| - 1])
    requires DecodeAscii(stdout) == Some(Join("\n", lines) + "\n")
    ensures Contribution(stdout, parse) == CleanLines(lines, parse)
  {
    var j := Join("\n", lines);
    var last := lines[|lines| - 1];
    JoinEnds(lines);
    assert j[0] == lines[0][0];
    assert j[|j| - 1] == last[|last| - 1];
    ReplayTextOfTerminated(stdout, j);
    assert !IsLineBreak(j[|j| - 1]);
    SplitLinesDropsFinalNewline(j);
    SplitLinesOfJoinedLines(lines);
    assert SplitLines(j) == lines;
  }

  /** A replay that prints one timestamped JSON object contributes that
      object without its `time` member. */
  lemma ContributionOfSingleRecord(stdout: seq<byte>, parse: JsonParser, line: string, record: Record)
    requires line != [] && NoLineBreak(line)
    requires !IsSpace(line[0]) && !IsSpace(line[|line| - 1])
    requires DecodeAscii(stdout) == Some(line + "\n")
    requires parse(line) == Some(record) && TimeKey in record
    ensures Contribution(stdout, parse) == Success([record - {TimeKey}])
  {
    assert Join("\n", [line]) == line;
    ContributionOfLines(stdout, parse, [line]);
    var r := CleanLines([line], parse);
    assert r.Success? && |r.value| == 1 && r.value[0] == record - {TimeKey};
    assert r.value == [record - {TimeKey}];
  }

  /** One descriptor together with the standard output of its replay. */
  datatype Replay = Replay(descriptor: string, stdout: seq<byte>)

  /** What one replay adds under its descriptor once cleaned. */
  datatype Entry = Entry(descriptor: string, records: seq<Record>)

  /** The per-replay cleanup, as a value the accumulation is generic in. */
  type Cleaner = seq<byte> -> Result<seq<Record>>

  /** `Contribution` with the parser fixed. */
  function CleanerOf(parse: JsonParser): (clean: Cleaner)
    ensures forall stdout :: clean(stdout) == Contribution(stdout, parse)
  {
    stdout => Contribution(stdout, parse)
  }

  predicate AllContribute(replays: seq<Replay>, clean: Cleaner) {
    forall k | 0 <= k < |replays| :: clean(replays[k].stdout).Success?
  }

  /** The cleaned contribution of every replay, in order, or the exception
      of the first replay that raises. */
  function Contributions(replays: seq<Replay>, clean: Cleaner): Result<seq<Entry>>
    decreases |replays|
  {
    if replays == [] then Success([])
    else
      var last := replays[|replays| - 1];
      var front :- Contributions(replays[..|replays| - 1], clean);
      var records :- clean(last.stdout);
      Success(front + [Entry(last.descriptor, records)])
  }

  /** The index of the first replay whose contribution raises. */
  predicate FirstCrash(replays: seq<Replay>, clean: Cleaner, i: int) {
    && 0 <= i < |replays|
    && clean(replays[i].stdout).Failure?
    && AllContribute(replays[..i], clean)
  }

  /** The contributions are there exactly when no replay raises, and then
      they are the replays' own contributions in order. */
  lemma {:induction false} ContributionsMeaning(replays: seq<Replay>, clean: Cleaner)
    ensures Contributions(replays, clean).Success? <==> AllContribute(replays, clean)
    ensures Contributions(replays, clean).Success? ==>
            && |Contributions(replays, clean).value| == |replays|
            && forall k | 0 <= k < |replays| ::
                 Contributions(replays, clean).value[k] == Entry(replays[k].descriptor, clean(replays[k].stdout).value)
    decreases |replays|
  {
    if replays != [] {
      var n := |replays| - 1;
      var front := replays[..n];
      ContributionsMeaning(front, clean);
      assert forall k | 0 <= k < n :: front[k] == replays[k];
    }
  }

  /** A failure is the exception of the first replay that raises. */
  lemma {:induction false} ContributionsFirstCrash(replays: seq<Replay>, clean: Cleaner)
    requires Contributions(replays, clean).Failure?
    ensures exists i :: FirstCrash(replays, clean, i)
                        && Contributions(replays, clean).error == clean(replays[i].stdout).error
    decreases |replays|
  {
    var n := |replays| - 1;
    var front := replays[..n];
    assert forall k | 0 <= k < n :: front[k] == replays[k];
    if Contributions(front, clean).Failure? {
      ContributionsFirstCrash(front, clean);
      var i :| FirstCrash(front, clean, i)
               && Contributions(front, clean).error == clean(front[i].stdout).error;
      assert front[..i] == replays[..i];
      assert FirstCrash(replays, clean, i);
    } else {
      ContributionsMeaning(front, clean);
      assert replays[..n] == front;
      assert FirstCrash(replays, clean, n);
    }
  }

  /** The descriptors whose records are not empty, built up in order. */
  function Productive(entries: seq<Entry>): set<string>
    decreases |entries|
  {
    if entries == [] then {}
    else
      var last := entries[|entries| - 1];
      Productive(entries[..|entries| - 1]) + (if last.records != [] then {last.descriptor} else {})
  }

  /** A descriptor is productive exactly when one of its entries is not
      empty. */
  lemma {:induction false} ProductiveMeaning(entries: seq<Entry>, d: string)
    ensures d in Productive(entries) <==>
            exists k :: 0 <= k < |entries| && entries[k].descriptor == d && entries[k].records != []
    decreases |entries|
  {
    if entries != [] {
      var n := |entries| - 1;
      var front := entries[..n];
      ProductiveMeaning(front, d);
      if d in Productive(front) {
        var k :| 0 <= k < |front| && front[k].descriptor == d && front[k].records != [];
        assert entries[k] == front[k];
      }
      if exists k :: 0 <= k < |entries| && entries[k].descriptor == d && entries[k].records != [] {
        var k :| 0 <= k < |entries| && entries[k].descriptor == d && entries[k].records != [];
        if k < n {
          assert front[k] == entries[k];
        }
      }
    }
  }

  /** Reference meaning of the entry for `d`: the records of every entry
      for `d`, in order. */
  function RecordsFor(entries: seq<Entry>, d: string): seq<Record>
    decreases |entries|
  {
    if entries == [] then []
    else
      var last := entries[|entries| - 1];
      RecordsFor(entries[..|entries| - 1], d) + (if last.descriptor == d then last.records else [])
  }

  /** The accumulated mapping agrees with the reference meaning. */
  predicate Collected(entries: seq<Entry>, outputs: map<string, seq<Record>>) {
    && outputs.Keys == Productive(entries)
    && forall d | d in outputs :: outputs[d] == RecordsFor(entries, d)
  }

  /** One turn of the loop: a new key starts an empty list, then the records
      are appended; an empty output leaves the mapping alone. */
  function AddContribution(outputs: map<string, seq<Record>>, d: string, c: seq<Record>): map<string, seq<Record>> {
    if c == [] then outputs
    else outputs[d := (if d in outputs then outputs[d] else []) + c]
  }

  /** The `rfraw_outputs` loop: replays in order, empty outputs skipped, a
      repeated descriptor appending to its existing list. */
  method CollectOutputs(replays: seq<Replay>, parse: JsonParser)
    returns (r: Result<map<string, seq<Record>>>)
    ensures r.Success? <==> Contributions(replays, CleanerOf(parse)).Success?
    ensures r.Failure? ==> r.error == Contributions(replays, CleanerOf(parse)).error
    ensures r.Success? ==> Collected(Contributions(replays, CleanerOf(parse)).value, r.value)
  {
    var outputs: map<string, seq<Record>> := map[];
    var entries: seq<Entry> := [];
    var i := 0;
    while i < |replays|
      invariant 0 <= i <= |replays|
      invariant Contributions(replays[..i], CleanerOf(parse)) == Success(entries)
      invariant Collected(entries, outputs)
    {
      var replay := replays[i];
      var c := Contribution(replay.stdout, parse);
      assert replays[..i + 1][..i] == replays[..i];
      assert replays[..i + 1][i] == replay;
      if c.Failure? {
        FailureSticks(replays, i + 1, CleanerOf(parse));
        return Failure(c.error);
      }
      CollectStep(entries, Entry(replay.descriptor, c.value), outputs);
      outputs := AddContribution(outputs, replay.descriptor, c.value);
      entries := entries + [Entry(replay.descriptor, c.value)];
      i := i + 1;
    }
    assert replays[..i] == replays;
    r := Success(outputs);
  }

  /** Once a prefix of the replays raises, so do all of them, with the same
      exception. */
  lemma {:induction false} FailureSticks(replays: seq<Replay>, i: nat, clean: Cleaner)
    requires i <= |replays|
    requires Contributions(replays[..i], clean).Failure?
    ensures Contributions(replays, clean) == Contributions(replays[..i], clean)
    decreases |replays| - i
  {
    if i < |replays| {
      assert replays[..i + 1][..i] == replays[..i];
      FailureSticks(replays, i + 1, clean);
    } else {
      assert replays[..i] == replays;
    }
  }

  /** The loop body keeps the mapping in step with the reference meaning. */
  lemma CollectStep(done: seq<Entry>, next: Entry, outputs: map<string, seq<Record>>)
    requires Collected(done, outputs)
    ensures Collected(done + [next], AddContribution(outputs, next.descriptor, next.records))
  {
    var all := done + [next];
    assert all[..|all| - 1] == done;
    assert all[|all| - 1] == next;
    var updated := AddContribution(outputs, next.descriptor, next.records);
    forall d | d in updated
      ensures updated[d] == RecordsFor(all, d)
    {
      CollectStepKey(done, next, outputs, d);
    }
  }

  /** The step for one key of the updated mapping. */
  lemma CollectStepKey(done: seq<Entry>, next: Entry, outputs: map<string, seq<Record>>, d: string)
    requires Collected(done, outputs)
    requires d in AddContribution(outputs, next.descriptor, next.records)
    ensures AddContribution(outputs, next.descriptor, next.records)[d] == RecordsFor(done + [next], d)
  {
    var all := done + [next];
    assert all[..|all| - 1] == done;
    assert all[|all| - 1] == next;
    if d == next.descriptor && next.records != [] {
      if d !in outputs {
        RecordsForAbsent(done, d);
      }
    } else if d == next.descriptor {
      assert RecordsFor(done, d) + next.records == RecordsFor(done, d);
    } else {
      assert RecordsFor(done, d) + [] == RecordsFor(done, d);
    }
  }

  /** A descriptor without a non-empty entry has no records. */
  lemma {:induction false} RecordsForAbsent(entries: seq<Entry>, d: string)
    requires d !in Productive(entries)
    ensures RecordsFor(entries, d) == []
    decreases |entries|
  {
    if entries != [] {
      RecordsForAbsent(entries[..|entries| - 1], d);
    }
  }

  /** No record in any entry keeps its `time` field. */
  predicate EntriesTimeFree(entries: seq<Entry>) {
    forall k | 0 <= k < |entries| :: forall j | 0 <= j < |entries[k].records| :: TimeKey !in entries[k].records[j]
  }

  predicate TimeFree(outputs: map<string, seq<Record>>) {
    forall d | d in outputs :: forall k | 0 <= k < |outputs[d]| :: TimeKey !in outputs[d][k]
  }

  /** Every contribution has had its `time` field removed. */
  lemma ContributionsTimeFree(replays: seq<Replay>, parse: JsonParser)
    requires Contributions(replays, CleanerOf(parse)).Success?
    ensures EntriesTimeFree(Contributions(replays, CleanerOf(parse)).value)
  {
    ContributionsMeaning(replays, CleanerOf(parse));
    var entries := Contributions(replays, CleanerOf(parse)).value;
    forall k | 0 <= k < |entries|
      ensures forall j | 0 <= j < |entries[k].records| :: TimeKey !in entries[k].records[j]
    {
      ContributionTimeFree(replays[k].stdout, parse);
    }
  }

  /** No record a replay contributes keeps its `time` field. */
  lemma ContributionTimeFree(stdout: seq<byte>, parse: JsonParser)
    requires Contribution(stdout, parse).Success?
    ensures forall k | 0 <= k < |Contribution(stdout, parse).value| :: TimeKey !in Contribution(stdout, parse).value[k]
  {
    var text := ReplayText(stdout).value;
    if text != "" {
      var lines := SplitLines(text);
      var c := CleanLines(lines, parse);
      assert forall k | 0 <= k < |lines| :: c.value[k] == CleanRecord(lines[k], parse).value;
    }
  }

  lemma {:induction false} RecordsForTimeFree(entries: seq<Entry>, d: string)
    requires EntriesTimeFree(entries)
    ensures forall k | 0 <= k < |RecordsFor(entries, d)| :: TimeKey !in RecordsFor(entries, d)[k]
    decreases |entries|
  {
    if entries != [] {
      var front := entries[..|entries| - 1];
      var last := entries[|entries| - 1];
      assert forall k | 0 <= k < |front| :: front[k] == entries[k];
      RecordsForTimeFree(front, d);
      ConcatTimeFree(RecordsFor(front, d), if last.descriptor == d then last.records else []);
    }
  }

  lemma ConcatTimeFree(a: seq<Record>, b: seq<Record>)
    requires forall k | 0 <= k < |a| :: TimeKey !in a[k]
    requires forall k | 0 <= k < |b| :: TimeKey !in b[k]
    ensures forall k | 0 <= k < |a + b| :: TimeKey !in (a + b)[k]
  {
    forall k | 0 <= k < |a + b|
      ensures TimeKey !in (a + b)[k]
    {
      if k < |a| {
        assert (a + b)[k] == a[k];
      } else {
        assert (a + b)[k] == b[k - |a|];
      }
    }
  }

  /** Every list in the written mapping is free of `time` fields. */
  lemma CollectedTimeFree(entries: seq<Entry>, outputs: map<string, seq<Record>>)
    requires EntriesTimeFree(entries)
    requires Collected(entries, outputs)
    ensures TimeFree(outputs)
  {
    forall d | d in outputs
      ensures forall k | 0 <= k < |outputs[d]| :: TimeKey !in outputs[d][k]
    {
      RecordsForTimeFree(entries, d);
    }
  }

  /** A repeated descriptor keeps the records of both replays, first one
      first; the second replay does not replace the first. */
  lemma DuplicateDescriptorAppends(d: string, a: seq<Record>, b: seq<Record>)
    ensures RecordsFor([Entry(d, a), Entry(d, b)], d) == a + b
  {
    var es := [Entry(d, a), Entry(d, b)];
    assert es[..1] == [Entry(d, a)];
    assert [Entry(d, a)][..0] == [];
    assert RecordsFor([Entry(d, a)], d) == [] + a;
  }

  /* ---------------------------------------------------------------------- */
  /* get_model_for_cu8_file, output naming, generate                        */
  /* ---------------------------------------------------------------------- */

  /** `get_model_for_cu8_file`: the `model` of the first fixture line, `None`
      for an empty fixture. A first line that is not an object with `model`
      raises (the handler itself fails on its undefined name). */
  function ExpectedModel(fs: Snapshot, capture: string, parse: JsonParser): (r: Result<Option<Value>>)
    ensures r == Success(None) <==> fs.ReadLines(WithExtension(capture, ".json")) == Some([])
    ensures fs.ReadLines(WithExtension(capture, ".json")).None? ==> r == Failure(FixtureUnreadable)
    ensures var lines := fs.ReadLines(WithExtension(capture, ".json"));
            lines.Some? && lines.value != [] ==>
            match parse(lines.value[0])
            case Some(record) =>
              r == if "model" in record then Success(Some(record["model"])) else Failure(MalformedFixtureJson)
            case None => r == Failure(MalformedFixtureJson)
  {
    var lines :- fs.ReadLines(WithExtension(capture, ".json")).OrCrash(FixtureUnreadable);
    if lines == [] then Success(None)
    else
      var record :- parse(lines[0]).OrCrash(MalformedFixtureJson);
      if "model" in record then Success(Some(record["model"])) else Failure(MalformedFixtureJson)
  }

  /** `not expected_model` is false. */
  predicate ModelGiven(model: Option<Value>) {
    model.Some? && model.value.Truthy()
  }

  const RfrawOutputPath: string := "rfraw"

  /** `os.path.join(RFRAW_OUTPUT_PATH, f"{model}_{stem}.rfraw.json")`: the
      derived file lies in the `rfraw` directory and is named after the model
      and the fixture's stem, unless the model text is itself an absolute
      path, which then replaces the directory. */
  function OutputPath(model: Value, filename: string): (path: string)
    ensures !StartsWith(model.Display(), "/") ==>
            path == "rfraw/" + model.Display() + "_" + SplitExt(filename).0 + ".rfraw.json"
    ensures StartsWith(model.Display(), "/") ==>
            path == model.Display() + "_" + SplitExt(filename).0 + ".rfraw.json"
  {
    JoinUnderRfraw(model.Display(), SplitExt(filename).0);
    PathJoin(RfrawOutputPath, model.Display() + "_" + SplitExt(filename).0 + ".rfraw.json")
  }

  /** For a fixture found by walking `root`, the sidecars are read from
      `root` itself. */
  lemma SidecarDirectoryOfWalkedFixture(root: string, filename: string)
    requires root != [] && root[|root| - 1] != '/'
    requires '/' !in filename
    ensures Dirname(CaptureOf(root, filename)) == root
  {
    DirnameOfWithExtension(PathJoin(root, filename), ".cu8");
    DirnameOfJoin(root, filename);
  }

  /** Joining the output name under `rfraw`: a relative model text keeps the
      directory, an absolute one replaces it. */
  lemma JoinUnderRfraw(t: string, stem: string)
    ensures var path := PathJoin(RfrawOutputPath, t + "_" + stem + ".rfraw.json");
            !StartsWith(t, "/") ==> path == "rfraw/" + t + "_" + stem + ".rfraw.json"
    ensures var path := PathJoin(RfrawOutputPath, t + "_" + stem + ".rfraw.json");
            StartsWith(t, "/") ==> path == t + "_" + stem + ".rfraw.json"
  {
    var name := t + "_" + stem + ".rfraw.json";
    if StartsWith(t, "/") {
      assert name[..1] == t[..1];
    } else {
      assert !StartsWith(name, "/") by {
        if t == [] {
          assert name[0] == '_';
        } else {
          assert name[0] == t[0];
        }
      }
      assert RfrawOutputPath + "/" == "rfraw/";
    }
  }

  /** `[rtl_path, "-y", line, "-F", "json"]`. */
  function ReplayVector(cmd: string, descriptor: string): seq<string> {
    [cmd, "-y", descriptor, "-F", "json"]
  }

  /** Where processing of one fixture ends. */
  datatype GenerateOutcome =
    | Skipped(capture: string, reason: SkipReason)
    | NoExpectedData(capture: string)
    | AnalyzeFailed(capture: string, exitCode: int)
    | RfrawWritten(path: string, outputs: map<string, seq<Record>>)

  /** The analyze-mode run `generate` makes for a resolved capture. */
  function AnalyzeVector(cmd: string, capture: string, meta: Resolution): (argv: seq<string>)
    requires meta.Proceed?
    ensures ParseCommandVector(argv)
         == Some(Invocation(cmd, capture, GivenSampleRate(Some(meta.sampleRate)),
                            GivenProtocol(meta.protocol), ["-A"]))
  {
    ParseCommandVectorRoundTrip(cmd, capture, Some(meta.sampleRate), meta.protocol, ["-A"]);
    CommandVector(cmd, capture, Some(meta.sampleRate), meta.protocol, ["-A"])
  }

  /** How far `generate` gets before it runs the decoder: it stops with an
      outcome, or goes on with the resolved capture, metadata and model. */
  datatype Admission =
    | Halt(outcome: GenerateOutcome)
    | Admit(capture: string, meta: Resolution, model: Value)

  /** The capture a fixture `root/filename` belongs to. */
  function CaptureOf(root: string, filename: string): string {
    WithExtension(PathJoin(root, filename), ".cu8")
  }

  /** `generate` up to the analyze-mode run: metadata, then the fixture's
      lines, then the expected model. */
  function AdmitFixture(fs: Snapshot, root: string, filename: string, parse: JsonParser): (r: Result<Admission>)
    ensures var capture := CaptureOf(root, filename);
            !fs.IsFile(capture) ==> r == Success(Halt(Skipped(capture, MissingCapture)))
    ensures var capture := CaptureOf(root, filename);
            fs.IsFile(capture) && fs.IsFile(PathJoin(Dirname(capture), IgnoreName))
            ==> r == Success(Halt(Skipped(capture, IgnoredCapture)))
    ensures r.Success? && r.value.Admit? ==>
            && r.value.capture == CaptureOf(root, filename)
            && GatherMetadata(fs, r.value.capture) == Success(r.value.meta)
            && r.value.meta.Proceed?
            && fs.ReadLines(PathJoin(root, filename)).Some?
            && fs.ReadLines(PathJoin(root, filename)).value != []
            && ExpectedModel(fs, r.value.capture, parse) == Success(Some(r.value.model))
            && r.value.model.Truthy()
    ensures var meta := GatherMetadata(fs, CaptureOf(root, filename));
            meta.Failure? ==> r == Failure(meta.error)
    ensures var meta := GatherMetadata(fs, CaptureOf(root, filename));
            meta.Success? && meta.value.Proceed? && fs.ReadLines(PathJoin(root, filename)).None?
            ==> r == Failure(FixtureUnreadable)
    ensures var capture := CaptureOf(root, filename);
            var meta := GatherMetadata(fs, capture);
            var model := ExpectedModel(fs, capture, parse);
            && meta.Success? && meta.value.Proceed?
            && fs.ReadLines(PathJoin(root, filename)).Some?
            && model.Failure?
            ==> r == Failure(model.error)
    ensures var capture := CaptureOf(root, filename);
            var lines := fs.ReadLines(PathJoin(root, filename));
            var model := ExpectedModel(fs, capture, parse);
            GatherMetadata(fs, capture).Success? && GatherMetadata(fs, capture).value.Proceed?
            && lines.Some? && model.Success? ==>
            (r == Success(Halt(NoExpectedData(capture))) <==> lines.value == [] || !ModelGiven(model.value))
    ensures var capture := CaptureOf(root, filename);
            var meta := GatherMetadata(fs, capture);
            var lines := fs.ReadLines(PathJoin(root, filename));
            var model := ExpectedModel(fs, capture, parse);
            && meta.Success? && meta.value.Proceed?
            && lines.Some? && lines.value != []
            && model.Success? && ModelGiven(model.value)
            ==> r == Success(Admit(capture, meta.value, model.value.value))
  {
    var fixture := PathJoin(root, filename);
    var capture := CaptureOf(root, filename);
    var meta :- GatherMetadata(fs, capture);
    if meta.Skip? then Success(Halt(Skipped(capture, meta.reason)))
    else
      var expected :- fs.ReadLines(fixture).OrCrash(FixtureUnreadable);
      var model :- ExpectedModel(fs, capture, parse);
      if expected == [] || !ModelGiven(model) then Success(Halt(NoExpectedData(capture)))
      else Success(Admit(capture, meta, model.value))
  }

  /** `extract_rfraw(err.decode("ascii"))`, with both exceptions: the
      decode is tried first. */
  function AnalyzeDescriptors(stderr: seq<byte>): (r: Result<seq<string>>)
    ensures !IsAscii(stderr) ==> r == Failure(NonAsciiOutput)
    ensures IsAscii(stderr) && r.Failure? ==> r.error == MissingDescriptorField
    ensures IsAscii(stderr) ==> (r.Success? <==> ExtractRfraw(DecodeAscii(stderr).value).Some?)
    ensures r.Success? ==> r.value == ExtractRfraw(DecodeAscii(stderr).value).value
    ensures r.Success? ==> forall k | 0 <= k < |r.value| :: '#' !in r.value[k]
  {
    var diagnostics :- DecodeAscii(stderr).OrCrash(NonAsciiOutput);
    ExtractRfraw(diagnostics).OrCrash(MissingDescriptorField)
  }

  /** Each descriptor paired with the output of its replay run. */
  function Replays(cmd: string, descriptors: seq<string>, decoder: Decoder): seq<Replay> {
    seq(|descriptors|, k requires 0 <= k < |descriptors| =>
          Replay(descriptors[k], decoder(ReplayVector(cmd, descriptors[k])).stdout))
  }

  /** `generate(root, filename, rtl_path)` up to the `json.dump`. */
  method Generate(fs: Snapshot, root: string, filename: string, cmd: string,
                  decoder: Decoder, parse: JsonParser)
    returns (r: Result<GenerateOutcome>)
    ensures var a := AdmitFixture(fs, root, filename, parse);
            && (a.Failure? ==> r == Failure(a.error))
            && (a.Success? && a.value.Halt? ==> r == Success(a.value.outcome))
    ensures r.Success? && r.value.AnalyzeFailed? ==>
            var a := AdmitFixture(fs, root, filename, parse);
            && a.Success? && a.value.Admit?
            && r.value.capture == a.value.capture
            && r.value.exitCode == decoder(AnalyzeVector(cmd, a.value.capture, a.value.meta)).exitCode
            && r.value.exitCode != 0
    ensures r.Success? && r.value.RfrawWritten? ==>
            var a := AdmitFixture(fs, root, filename, parse);
            && a.Success? && a.value.Admit?
            && r.value.path == OutputPath(a.value.model, filename)
            && var analyze := decoder(AnalyzeVector(cmd, a.value.capture, a.value.meta));
               && analyze.exitCode == 0
               && AnalyzeDescriptors(analyze.stderr).Success?
               && var replays := Replays(cmd, AnalyzeDescriptors(analyze.stderr).value, decoder);
                  Contributions(replays, CleanerOf(parse)).Success?
                  && Collected(Contributions(replays, CleanerOf(parse)).value, r.value.outputs)
    ensures r.Success? && r.value.RfrawWritten? ==> TimeFree(r.value.outputs)
    ensures var a := AdmitFixture(fs, root, filename, parse);
            a.Success? && a.value.Admit? ==>
            var analyze := decoder(AnalyzeVector(cmd, a.value.capture, a.value.meta));
            var descriptors := AnalyzeDescriptors(analyze.stderr);
            && (analyze.exitCode != 0 ==> r == Success(AnalyzeFailed(a.value.capture, analyze.exitCode)))
            && (analyze.exitCode == 0 && descriptors.Failure? ==> r == Failure(descriptors.error))
            && (analyze.exitCode == 0 && descriptors.Success? ==>
                  var contributions := Contributions(Replays(cmd, descriptors.value, decoder), CleanerOf(parse));
                  && (contributions.Failure? ==> r == Failure(contributions.error))
                  && (contributions.Success? ==> r.Success? && r.value.RfrawWritten?))
  {
    var admission :- AdmitFixture(fs, root, filename, parse);
    if admission.Halt? {
      return Success(admission.outcome);
    }
    var analyze := decoder(AnalyzeVector(cmd, admission.capture, admission.meta));
    if analyze.exitCode != 0 {
      return Success(AnalyzeFailed(admission.capture, analyze.exitCode));
    }
    var descriptors :- AnalyzeDescriptors(analyze.stderr);
    var replays := Replays(cmd, descriptors, decoder);
    var outputs :- CollectOutputs(replays, parse);
    ContributionsTimeFree(replays, parse);
    CollectedTimeFree(Contributions(replays, CleanerOf(parse)).value, outputs);
    return Success(RfrawWritten(OutputPath(admission.model, filename), outputs));
  }
}

=== FILE: paths.dfy ===
/** The three `os.path` operations the scripts use on POSIX paths:
    `splitext`, `dirname` and the two-argument `join`. */
module Paths {
  import opened Text

  /** Index of the last `c` in `s`, or -1 when there is none (`str.rfind`). */
  function LastIndexOf(s: string, c: char): (r: int)
    ensures -1 <= r < |s|
    ensures r >= 0 ==> s[r] == c
    ensures forall k | r < k < |s| :: s[k] != c
    decreases |s|
  {
    if s == [] then -1
    else if s[|s| - 1] == c then |s| - 1
    else LastIndexOf(s[..|s| - 1], c)
  }

  /** The three facts above pin the index down. */
  lemma LastIndexOfUnique(s: string, c: char, r: int)
    requires -1 <= r < |s|
    requires r >= 0 ==> s[r] == c
    requires forall k | r < k < |s| :: s[k] != c
    ensures LastIndexOf(s, c) == r
  {
  }

  /** Appending text without `c` does not move the last `c`. */
  lemma LastIndexOfAppend(a: string, b: string, c: char)
    requires c !in b
    ensures LastIndexOf(a + b, c) == LastIndexOf(a, c)
  {
    var r := LastIndexOf(a, c);
    forall k | r < k < |a + b|
      ensures (a + b)[k] != c
    {
      if k >= |a| {
        assert (a + b)[k] == b[k - |a|];
      }
    }
    LastIndexOfUnique(a + b, c, r);
  }

  /** The part of `p` after its last `/`. */
  function BaseName(p: string): string {
    p[LastIndexOf(p, '/') + 1..]
  }

  predicate AllDots(s: string) {
    forall k | 0 <= k < |s| :: s[k] == '.'
  }

  /** An extension as `splitext` returns it: a dot followed by neither a dot
      nor a slash. */
  predicate IsExtension(e: string) {
    e != [] && e[0] == '.' && '.' !in e[1..] && '/' !in e
  }

  /** `os.path.splitext(p)`: the last dot of the last component starts the
      extension, unless everything before it in that component is dots. */
  function SplitExt(p: string): (parts: (string, string))
    ensures parts.0 + parts.1 == p
    ensures parts.1 == [] || IsExtension(parts.1)
    ensures parts.1 != [] ==> !AllDots(BaseName(parts.0))
  {
    var sep := LastIndexOf(p, '/');
    var dot := LastIndexOf(p, '.');
    if dot <= sep || AllDots(p[sep + 1..dot]) then
      NoExtension(p)
    else
      SuffixAfterLastDot(p, sep, dot);
      StemAfterLastSlash(p, sep, dot);
      assert p[..dot] + p[dot..] == p;
      (p[..dot], p[dot..])
  }

  /** The whole path as the root, with an empty extension. */
  function NoExtension(p: string): (parts: (string, string))
    ensures parts.0 + parts.1 == p && parts.1 == []
  {
    assert p + [] == p;
    (p, [])
  }

  /** From the last dot on, past the last slash, is an extension. */
  lemma SuffixAfterLastDot(p: string, sep: int, dot: int)
    requires sep == LastIndexOf(p, '/') && dot == LastIndexOf(p, '.') && sep < dot
    ensures IsExtension(p[dot..])
  {
    assert '/' !in p[dot..] by {
      forall k | 0 <= k < |p[dot..]| ensures p[dot..][k] != '/' {
        assert p[dot..][k] == p[dot + k];
      }
    }
    assert '.' !in p[dot..][1..] by {
      forall k | 0 <= k < |p[dot..][1..]| ensures p[dot..][1..][k] != '.' {
        assert p[dot..][1..][k] == p[dot + 1 + k];
      }
    }
  }

  /** Cutting at the last dot keeps the last slash, so the stem's base name
      is the text between the two. */
  lemma StemAfterLastSlash(p: string, sep: int, dot: int)
    requires sep == LastIndexOf(p, '/') && dot == LastIndexOf(p, '.') && sep < dot
    ensures BaseName(p[..dot]) == p[sep + 1..dot]
  {
    LastIndexOfUnique(p[..dot], '/', sep);
  }

  /** `os.path.splitext(p)[0] + ext`: the path with its extension replaced. */
  function WithExtension(p: string, ext: string): string {
    SplitExt(p).0 + ext
  }

  predicate AllSlashes(s: string) {
    forall k | 0 <= k < |s| :: s[k] == '/'
  }

  /** `s.rstrip("/")`. */
  function TrimTrailingSlashes(s: string): (r: string)
    ensures StartsWith(s, r)
    ensures r == [] || r[|r| - 1] != '/'
    decreases |s|
  {
    if s != [] && s[|s| - 1] == '/' then
      var r := TrimTrailingSlashes(s[..|s| - 1]);
      assert s[..|r|] == s[..|s| - 1][..|r|];
      r
    else s
  }

  /** What `dirname` keeps of the head (everything up to and including the
      last `/`): the head without its trailing slashes, unless it is all
      slashes. */
  function HeadDir(head: string): (d: string)
    ensures StartsWith(head, d)
  {
    if head != [] && !AllSlashes(head) then TrimTrailingSlashes(head) else head
  }

  /** `os.path.dirname(p)`: everything before the last `/`, with trailing
      slashes removed unless the whole head is slashes. */
  function Dirname(p: string): (d: string)
    ensures StartsWith(p, d)
    ensures '/' !in p ==> d == []
  {
    var head := p[..LastIndexOf(p, '/') + 1];
    var d := HeadDir(head);
    assert p[..|d|] == head[..|d|];
    d
  }

  /** `os.path.join(a, b)` for two components: `b` always ends the result;
      an absolute `b` replaces `a`, a relative one is put under it. */
  function PathJoin(a: string, b: string): (r: string)
    ensures |b| <= |r| && r[|r| - |b|..] == b
    ensures StartsWith(b, "/") ==> r == b
    ensures !StartsWith(b, "/") ==> r == a + b || r == a + "/" + b
    ensures !StartsWith(b, "/") && a != [] && a[|a| - 1] != '/' ==> r == a + "/" + b
  {
    if StartsWith(b, "/") then b
    else if a == [] || a[|a| - 1] == '/' then a + b
    else a + "/" + b
  }

  /** The directory of a path depends only on what precedes its last `/`. */
  lemma DirnameOfAppend(a: string, b: string)
    requires '/' !in b
    ensures Dirname(a + b) == Dirname(a)
  {
    LastIndexOfAppend(a, b, '/');
    var i := LastIndexOf(a, '/') + 1;
    assert (a + b)[..i] == a[..i];
  }

  /** Replacing the extension keeps the directory: a capture and its fixture
      share their sidecar files. */
  lemma DirnameOfWithExtension(p: string, ext: string)
    requires '/' !in ext
    ensures Dirname(WithExtension(p, ext)) == Dirname(p)
  {
    var (root, e) := SplitExt(p);
    DirnameOfAppend(root, e);
    DirnameOfAppend(root, ext);
  }

  /** Putting an extension on a path with a proper stem, then splitting it
      off again, gives back the stem and that extension. */
  lemma SplitExtOfNewExtension(root: string, ext: string)
    requires !AllDots(BaseName(root))
    requires IsExtension(ext)
    ensures SplitExt(root + ext) == (root, ext)
  {
    var q := root + ext;
    var sep := LastIndexOf(root, '/');
    LastIndexOfAppend(root, ext, '/');
    LastDotOfNewExtension(root, ext);
    assert q[sep + 1..|root|] == BaseName(root);
    SplitExtAt(q, sep, |root|);
    assert q[..|root|] == root;
    assert q[|root|..] == ext;
  }

  /** `splitext` cuts at the last dot when that dot follows the last slash
      and the text between them is not all dots. */
  lemma SplitExtAt(p: string, sep: int, dot: int)
    requires sep == LastIndexOf(p, '/') && dot == LastIndexOf(p, '.')
    requires sep < dot && !AllDots(p[sep + 1..dot])
    ensures SplitExt(p) == (p[..dot], p[dot..])
  {
  }

  /** The new extension's dot is the last dot. */
  lemma LastDotOfNewExtension(root: string, ext: string)
    requires IsExtension(ext)
    ensures LastIndexOf(root + ext, '.') == |root|
  {
    var q := root + ext;
    forall k | |root| < k < |q|
      ensures q[k] != '.'
    {
      assert q[k] == ext[1..][k - |root| - 1];
    }
    LastIndexOfUnique(q, '.', |root|);
  }

  /** The fixture that `generate` reads the expected model from is the one it
      started from, whenever that one has a proper stem and the extension
      `ext`. */
  lemma WithExtensionRoundTrip(p: string, ext: string, other: string)
    requires SplitExt(p).1 == ext && ext != []
    requires IsExtension(other)
    ensures WithExtension(WithExtension(p, other), ext) == p
  {
    SplitExtOfNewExtension(SplitExt(p).0, other);
  }

  /** A fixture named only `.json` has no stem, so the swap round trip adds
      a second `.json` instead of giving the fixture back. */
  lemma DotJsonFixtureNotRecovered()
    ensures WithExtension(WithExtension("tests/.json", ".cu8"), ".json") == "tests/.json.json"
  {
    var p := "tests/.json";
    assert LastIndexOf(p, '/') == 5 by { LastIndexOfUnique(p, '/', 5); }
    assert LastIndexOf(p, '.') == 6 by { LastIndexOfUnique(p, '.', 6); }
    assert AllDots(p[6..6]);
    assert SplitExt(p) == (p, "");
    var q := p + ".cu8";
    assert LastIndexOf(q, '/') == 5 by { LastIndexOfUnique(q, '/', 5); }
    assert LastIndexOf(q, '.') == 11 by { LastIndexOfUnique(q, '.', 11); }
    assert !AllDots(q[6..11]) by { assert q[7] == 'j'; }
    assert SplitExt(q) == (q[..11], q[11..]);
    assert q[..11] == p;
  }

  /** A directory written with one trailing slash names that directory. */
  lemma DirnameOfSlashed(root: string)
    requires root != [] && root[|root| - 1] != '/'
    ensures Dirname(root + "/") == root
  {
    var dir := root + "/";
    assert LastIndexOf(dir, '/') == |root|;
    assert dir[..|root| + 1] == dir;
    assert !AllSlashes(dir) by {
      assert dir[|root| - 1] == root[|root| - 1];
    }
    assert HeadDir(dir) == TrimTrailingSlashes(dir);
    assert dir[..|dir| - 1] == root;
    assert TrimTrailingSlashes(dir) == TrimTrailingSlashes(root) == root;
  }

  /** The directory of a name joined under a directory is that directory:
      the sidecars of a file found by walking a directory are read from that
      directory. */
  lemma DirnameOfJoin(root: string, name: string)
    requires root != [] && root[|root| - 1] != '/'
    requires '/' !in name
    ensures Dirname(PathJoin(root, name)) == root
  {
    assert !StartsWith(name, "/") by {
      if |name| >= 1 {
        assert name[0] in name;
      }
    }
    assert PathJoin(root, name) == (root + "/") + name;
    DirnameOfAppend(root + "/", name);
    DirnameOfSlashed(root);
  }
}

=== FILE: refresh_all.dfy ===
/** `refresh_all.py`: re-run the decoder on every capture and overwrite its
    fixture with the lines the decoder prints now.
 */
module RefreshAll {
  import opened Results
  import opened Text
  import opened Paths
  import opened FileSystem
  import opened RtlRunner
  import GenerateRfraw

  /** `convert`'s own copy of the metadata lookup: the capture's existence
      is checked on the capture, the sidecars are looked up next to the
      fixture. */
  function ResolveSidecars(fs: Snapshot, fixture: string): Result<Resolution> {
    SidecarDecision(fs, WithExtension(fixture, ".cu8"), Dirname(fixture))
  }

  /** The inline copy decides exactly as `gather_metadata` does on the
      fixture's capture: swapping the extension keeps the directory. */
  lemma ResolveSidecarsAgrees(fs: Snapshot, fixture: string)
    ensures ResolveSidecars(fs, fixture) == GenerateRfraw.GatherMetadata(fs, WithExtension(fixture, ".cu8"))
  {
    DirnameOfWithExtension(fixture, ".cu8");
  }

  /** `"\n".join(lines)` followed by a final `"\n"`: the text always ends
      in a newline, and no lines at all still leave that newline behind. */
  function Serialize(lines: seq<string>): (text: string)
    ensures text != [] && text[|text| - 1] == '\n'
    ensures lines == [] ==> text == "\n"
    ensures |lines| == 1 ==> text == lines[0] + "\n"
  {
    Join("\n", lines) + "\n"
  }

  /** Where processing of one fixture ends. */
  datatype ConvertOutcome =
    | Skipped(capture: string, reason: SkipReason)
    | Rewritten(after: Snapshot, lines: seq<string>, exitCode: int, differs: bool)

  /** The decoder run `convert` makes: no extra arguments. */
  function ConvertVector(cmd: string, capture: string, meta: Resolution): (argv: seq<string>)
    requires meta.Proceed?
    ensures ParseCommandVector(argv)
         == Some(Invocation(cmd, capture, GivenSampleRate(Some(meta.sampleRate)),
                            GivenProtocol(meta.protocol), []))
  {
    ParseCommandVectorRoundTrip(cmd, capture, Some(meta.sampleRate), meta.protocol, []);
    CommandVector(cmd, capture, Some(meta.sampleRate), meta.protocol, [])
  }

  /** The run's standard output as lines, or the exception of the decode. */
  function OutputLines(run: RunResult): (r: Result<seq<string>>)
    ensures r.Success? <==> IsAscii(run.stdout)
    ensures r.Failure? ==> r.error == NonAsciiOutput
    ensures r.Success? ==> (r.value == [] <==> run.stdout == [])
    ensures r.Success? ==> forall k | 0 <= k < |r.value| :: NoLineBreak(r.value[k])
  {
    var text :- DecodeAscii(run.stdout).OrCrash(NonAsciiOutput);
    Success(SplitLines(text))
  }

  /** A decoder that prints the given lines, each ended by a newline, gives
      back exactly those lines. */
  lemma OutputLinesOfJoinedLines(run: RunResult, lines: seq<string>)
    requires lines != []
    requires forall k | 0 <= k < |lines| :: NoLineBreak(lines[k])
    requires DecodeAscii(run.stdout) == Some(Join("\n", lines) + "\n")
    ensures OutputLines(run) == Success(lines)
  {
    SplitLinesOfJoinedLines(lines);
  }

  /** The sidecar decision `convert` acts on for `filename` found under
      `root`: the lookup made for its capture. */
  function Meta(fs: Snapshot, root: string, filename: string): Result<Resolution> {
    GenerateRfraw.GatherMetadata(fs, GenerateRfraw.CaptureOf(root, filename))
  }

  /** `convert(root, filename, rtl_path)`. */
  function Convert(fs: Snapshot, root: string, filename: string, cmd: string, decoder: Decoder)
    : (r: Result<ConvertOutcome>)
    ensures var capture := GenerateRfraw.CaptureOf(root, filename);
            !fs.IsFile(capture) ==> r == Success(Skipped(capture, MissingCapture))
    ensures var capture := GenerateRfraw.CaptureOf(root, filename);
            fs.IsFile(capture) && fs.IsFile(PathJoin(Dirname(capture), IgnoreName))
            ==> r == Success(Skipped(capture, IgnoredCapture))
    ensures var fixture := PathJoin(root, filename);
            var meta := Meta(fs, root, filename);
            (r.Success? && r.value.Rewritten?) <==>
              && meta.Success? && meta.value.Proceed?
              && fs.IsFile(fixture)
              && IsAscii(decoder(ConvertVector(cmd, GenerateRfraw.CaptureOf(root, filename), meta.value)).stdout)
    ensures r.Success? && r.value.Rewritten? ==>
            var fixture := PathJoin(root, filename);
            var run := decoder(ConvertVector(cmd, GenerateRfraw.CaptureOf(root, filename), Meta(fs, root, filename).value));
            && OutputLines(run) == Success(r.value.lines)
            && r.value.exitCode == run.exitCode
            && r.value.differs == (|fs.ReadLines(fixture).value| != |r.value.lines|)
            && r.value.after == fs.Write(fixture, Serialize(r.value.lines))
    ensures var meta := Meta(fs, root, filename);
            meta.Failure? ==> r == Failure(meta.error)
    ensures var meta := Meta(fs, root, filename);
            meta.Success? && meta.value.Proceed? && !fs.IsFile(PathJoin(root, filename))
            ==> r == Failure(FixtureUnreadable)
    ensures var capture := GenerateRfraw.CaptureOf(root, filename);
            var meta := Meta(fs, root, filename);
            && meta.Success? && meta.value.Proceed?
            && fs.IsFile(PathJoin(root, filename))
            && !IsAscii(decoder(ConvertVector(cmd, capture, meta.value)).stdout)
            ==> r == Failure(NonAsciiOutput)
  {
    var fixture := PathJoin(root, filename);
    var capture := WithExtension(fixture, ".cu8");
    ResolveSidecarsAgrees(fs, fixture);
    DirnameOfWithExtension(fixture, ".cu8");
    var meta :- ResolveSidecars(fs, fixture);
    if meta.Skip? then Success(Skipped(capture, meta.reason))
    else
      var oldLines :- fs.ReadLines(fixture).OrCrash(FixtureUnreadable);
      var run := decoder(ConvertVector(cmd, capture, meta));
      var newLines :- OutputLines(run);
      Success(Rewritten(fs.Write(fixture, Serialize(newLines)), newLines, run.exitCode,
                        |oldLines| != |newLines|))
  }

  /** A failing decoder exit is reported but does not stop the rewrite. */
  lemma NonzeroExitStillRewrites(fs: Snapshot, root: string, filename: string, cmd: string, decoder: Decoder)
    requires var meta := Meta(fs, root, filename);
             && meta.Success? && meta.value.Proceed?
             && fs.IsFile(PathJoin(root, filename))
             && var run := decoder(ConvertVector(cmd, GenerateRfraw.CaptureOf(root, filename), meta.value));
                IsAscii(run.stdout) && run.exitCode != 0
    ensures Convert(fs, root, filename, cmd, decoder).Success?
    ensures Convert(fs, root, filename, cmd, decoder).value.Rewritten?
    ensures Convert(fs, root, filename, cmd, decoder).value.exitCode != 0
  {
  }

  /** Reading the rewritten fixture back gives the new lines; an empty
      output leaves a single empty line behind. */
  lemma RewrittenReadsBack(fs: Snapshot, root: string, filename: string, cmd: string, decoder: Decoder)
    requires Convert(fs, root, filename, cmd, decoder).Success?
    requires Convert(fs, root, filename, cmd, decoder).value.Rewritten?
    ensures var out := Convert(fs, root, filename, cmd, decoder).value;
            out.after.ReadLines(PathJoin(root, filename))
              == Some(if out.lines == [] then [""] else out.lines)
  {
    var out := Convert(fs, root, filename, cmd, decoder).value;
    SerializedReadsBack(out.lines);
  }

  /** What `splitlines` makes of a serialized list of lines. */
  lemma SerializedReadsBack(lines: seq<string>)
    requires forall k | 0 <= k < |lines| :: NoLineBreak(lines[k])
    ensures SplitLines(Serialize(lines)) == if lines == [] then [""] else lines
  {
    if lines == [] {
      assert Serialize(lines) == "" + "\n";
      SplitLinesLeadingLine("", "");
    } else {
      SplitLinesOfJoinedLines(lines);
    }
  }

  /** The fixture is none of the files `convert` reads besides itself. */
  predicate FixtureApart(root: string, filename: string) {
    var fixture := PathJoin(root, filename);
    var dir := Dirname(fixture);
    && fixture != GenerateRfraw.CaptureOf(root, filename)
    && fixture != PathJoin(dir, IgnoreName)
    && fixture != PathJoin(dir, SampleRateName)
    && fixture != PathJoin(dir, ProtocolName)
  }

  /** Writing the fixture does not change what the sidecars decide. */
  lemma WriteKeepsMetadata(fs: Snapshot, root: string, filename: string, text: string)
    requires FixtureApart(root, filename)
    ensures var fixture := PathJoin(root, filename);
            var capture := GenerateRfraw.CaptureOf(root, filename);
            GenerateRfraw.GatherMetadata(fs.Write(fixture, text), capture) == GenerateRfraw.GatherMetadata(fs, capture)
  {
    var fixture := PathJoin(root, filename);
    var capture := GenerateRfraw.CaptureOf(root, filename);
    var dir := Dirname(fixture);
    assert fixture != capture;
    assert fixture != PathJoin(dir, IgnoreName);
    assert fixture != PathJoin(dir, SampleRateName);
    assert fixture != PathJoin(dir, ProtocolName);
    DirnameOfWithExtension(fixture, ".cu8");
    WriteKeepsDecision(fs, fixture, text, capture, dir);
  }

  /** Refreshing twice with a decoder that answers the same way is stable:
      the second pass writes the same text and, unless the output was empty,
      reports no difference. */
  lemma RefreshIsStable(fs: Snapshot, root: string, filename: string, cmd: string, decoder: Decoder)
    requires FixtureApart(root, filename)
    requires Convert(fs, root, filename, cmd, decoder).Success?
    requires Convert(fs, root, filename, cmd, decoder).value.Rewritten?
    ensures var first := Convert(fs, root, filename, cmd, decoder).value;
            var second := Convert(first.after, root, filename, cmd, decoder);
            && second.Success? && second.value.Rewritten?
            && second.value.lines == first.lines
            && second.value.after.files[PathJoin(root, filename)] == first.after.files[PathJoin(root, filename)]
            && (second.value.differs <==> first.lines == [])
  {
    var fixture := PathJoin(root, filename);
    var capture := GenerateRfraw.CaptureOf(root, filename);
    var first := Convert(fs, root, filename, cmd, decoder).value;
    var after := first.after;
    WriteKeepsMetadata(fs, root, filename, Serialize(first.lines));
    var meta := Meta(fs, root, filename);
    assert Meta(after, root, filename) == meta;
    assert meta.Success? && meta.value.Proceed?;
    var run := decoder(ConvertVector(cmd, capture, meta.value));
    assert after.IsFile(fixture);
    assert IsAscii(run.stdout);
    var second := Convert(after, root, filename, cmd, decoder);
    assert second.Success? && second.value.Rewritten?;
    assert OutputLines(run) == Success(second.value.lines);
    RewrittenReadsBack(fs, root, filename, cmd, decoder);
  }

  /** An empty decoder output is written as a lone newline, which reads back
      as one empty line: every later refresh warns about different data. */
  lemma EmptyOutputAlwaysWarns(fs: Snapshot, root: string, filename: string, cmd: string, decoder: Decoder)
    requires FixtureApart(root, filename)
    requires Convert(fs, root, filename, cmd, decoder).Success?
    requires Convert(fs, root, filename, cmd, decoder).value.Rewritten?
    requires Convert(fs, root, filename, cmd, decoder).value.lines == []
    ensures var first := Convert(fs, root, filename, cmd, decoder).value;
            var second := Convert(first.after, root, filename, cmd, decoder);
            && second.Success? && second.value.Rewritten?
            && second.value.differs
            && second.value.after.files[PathJoin(root, filename)] == "\n"
  {
    RefreshIsStable(fs, root, filename, cmd, decoder);
  }
}

=== FILE: results.dfy ===
/** Failure-compatible wrappers shared by the whole model.

    The scripts signal problems in two ways: by returning early (modelled as
    ordinary outcome values in each module) and by letting a Python exception
    escape (modelled as `Failure` with a `Crash` naming the exception's cause).
 */
module Results {

  datatype Option<+T> = None | Some(value: T) {
    predicate IsFailure() { None? }

    function PropagateFailure<U>(): Option<U>
      requires None?
    {
      None
    }

    function Extract(): T
      requires Some?
    {
      value
    }

    /** `None` becomes the exception `crash` stands for. */
    function OrCrash(crash: Crash): Result<T> {
      match this
      case Some(v) => Success(v)
      case None => Failure(crash)
    }
  }

  /** The causes of an exception escaping from one fixture's processing. */
  datatype Crash =
    | FixtureUnreadable       // `open` on a fixture path that is not a file
    | MalformedSampleRate     // `int()` rejected the first line of `samplerate`
    | NonAsciiOutput          // `bytes.decode("ascii")` met a byte above 127
    | MissingDescriptorField  // `line.split("#")[1]` on a line without `#`
    | MalformedFixtureJson    // first fixture line not a JSON object with `model`
    | MalformedRecord         // a replay output line not a JSON object
    | MissingTimeField        // `del record["time"]` on a record without `time`

  datatype Result<+R> = Success(value: R) | Failure(error: Crash) {
    predicate IsFailure() { Failure? }

    function PropagateFailure<U>(): Result<U>
      requires Failure?
    {
      Failure(error)
    }

    function Extract(): R
      requires Success?
    {
      value
    }
  }
}

=== FILE: rtl_runner.dfy ===
/** `rtl_runner.run`: the argument vector handed to the decoder.

    The process itself (spawn, wait, capture of both streams) is a foreign
    call; it is modelled as a function `Decoder` from the argument vector to
    what the process leaves behind.
 */
module RtlRunner {
  import opened Results
  import opened Text

  /** Captured standard output, standard error and exit status of one run. */
  datatype RunResult = RunResult(stdout: seq<byte>, stderr: seq<byte>, exitCode: int)

  /** The external decoder, as a function of its full argument vector. */
  type Decoder = seq<string> -> RunResult

  /** `if protocol:` on a string or `None`: the empty string counts as absent. */
  predicate ProtocolGiven(protocol: Option<string>) {
    protocol.Some? && protocol.value != ""
  }

  /** `if samplerate:` on an integer or `None`: zero counts as absent. */
  predicate SampleRateGiven(sampleRate: Option<int>) {
    sampleRate.Some? && sampleRate.value != 0
  }

  function ProtocolFlags(protocol: Option<string>): seq<string> {
    if ProtocolGiven(protocol) then ["-R", protocol.value] else []
  }

  function SampleRateFlags(sampleRate: Option<int>): seq<string> {
    if SampleRateGiven(sampleRate) then ["-s", IntToString(sampleRate.value)] else []
  }

  /** Position of the first argument after the optional flags. */
  function FixedFlagsStart(sampleRate: Option<int>, protocol: Option<string>): nat {
    3 + (if ProtocolGiven(protocol) then 2 else 0) + (if SampleRateGiven(sampleRate) then 2 else 0)
  }

  /** `[rtl_433_cmd] + args` as `run` builds it. */
  function CommandVector(cmd: string, input: string, sampleRate: Option<int>,
                         protocol: Option<string>, extra: seq<string>): (argv: seq<string>)
    ensures |argv| == FixedFlagsStart(sampleRate, protocol) + 4 + |extra|
    ensures argv[..3] == [cmd, "-c", "0"]
    ensures argv[3] == "-R" <==> ProtocolGiven(protocol)
    ensures ProtocolGiven(protocol) ==> argv[4] == protocol.value
    ensures var k := if ProtocolGiven(protocol) then 5 else 3;
            && (argv[k] == "-s" <==> SampleRateGiven(sampleRate))
            && (SampleRateGiven(sampleRate) ==> argv[k + 1] == IntToString(sampleRate.value))
    ensures var m := FixedFlagsStart(sampleRate, protocol);
            argv[m..m + 4] == ["-F", "json", "-r", input]
    ensures argv[|argv| - |extra|..] == extra
  {
    [cmd] + ["-c", "0"] + ProtocolFlags(protocol) + SampleRateFlags(sampleRate)
      + ["-F", "json", "-r", input] + extra
  }

  /** The parameters of one decoder invocation, as the decoder reads them. */
  datatype Invocation = Invocation(cmd: string, input: string, sampleRate: Option<int>,
                                   protocol: Option<string>, extra: seq<string>)

  /** Reads an argument vector of the shape `run` produces back into its
      parameters; `None` for any other shape. */
  function ParseCommandVector(argv: seq<string>): Option<Invocation> {
    if |argv| < 3 || argv[1] != "-c" || argv[2] != "0" then None
    else
      var afterDevice := argv[3..];
      var hasProtocol := |afterDevice| >= 2 && afterDevice[0] == "-R";
      var protocol := if hasProtocol then Some(afterDevice[1]) else None;
      var afterProtocol := if hasProtocol then afterDevice[2..] else afterDevice;
      var hasRate := |afterProtocol| >= 2 && afterProtocol[0] == "-s";
      var rate := if hasRate then ParseInt(afterProtocol[1]) else None;
      var afterRate := if hasRate then afterProtocol[2..] else afterProtocol;
      if hasRate && rate.None? then None
      else if |afterRate| >= 4 && afterRate[..3] == ["-F", "json", "-r"] then
        Some(Invocation(argv[0], afterRate[3], rate, protocol, afterRate[4..]))
      else None
  }

  /** What survives of an optional value once falsy values are dropped. */
  function GivenProtocol(protocol: Option<string>): Option<string> {
    if ProtocolGiven(protocol) then protocol else None
  }

  function GivenSampleRate(sampleRate: Option<int>): Option<int> {
    if SampleRateGiven(sampleRate) then sampleRate else None
  }

  /** The argument vector loses nothing but falsy optional values: reading it
      back gives the command, capture, truthy options and extra arguments. */
  lemma ParseCommandVectorRoundTrip(cmd: string, input: string, sampleRate: Option<int>,
                                    protocol: Option<string>, extra: seq<string>)
    ensures ParseCommandVector(CommandVector(cmd, input, sampleRate, protocol, extra))
         == Some(Invocation(cmd, input, GivenSampleRate(sampleRate), GivenProtocol(protocol), extra))
  {
    var argv := CommandVector(cmd, input, sampleRate, protocol, extra);
    var tail := ["-F", "json", "-r", input] + extra;
    var afterProtocol := SampleRateFlags(sampleRate) + tail;
    var afterDevice := argv[3..];
    assert afterDevice == ProtocolFlags(protocol) + afterProtocol;
    assert tail[0] == "-F" && tail[..3] == ["-F", "json", "-r"] && tail[3] == input;
    assert tail[4..] == extra;
    if ProtocolGiven(protocol) {
      assert afterDevice[0] == "-R" && afterDevice[1] == protocol.value;
      assert afterDevice[2..] == afterProtocol;
    } else {
      assert afterDevice == afterProtocol;
      assert afterDevice[0] != "-R";
    }
    if SampleRateGiven(sampleRate) {
      var digits := IntToString(sampleRate.value);
      assert afterProtocol[0] == "-s" && afterProtocol[1] == digits;
      ParseIntOfIntToString(sampleRate.value);
      assert afterProtocol[2..] == tail;
    } else {
      assert afterProtocol == tail;
      assert afterProtocol[0] != "-s";
    }
  }
}

=== FILE: text.dfy ===
/** The Python `str` and `bytes` operations the scripts rely on, written out
    over `seq<char>`: `splitlines`, `join`, `split`, `strip`, `in`, `int()`,
    `str()` of an integer and `bytes.decode("ascii")`.
 */
module Text {
  import opened Results

  /* ---------------------------------------------------------------------- */
  /* Searching                                                              */
  /* ---------------------------------------------------------------------- */

  /** Index of the first `c` in `s`, or `|s|` when there is none. */
  function IndexOf(s: string, c: char): (i: nat)
    ensures i <= |s|
    ensures c !in s[..i]
    ensures i < |s| ==> s[i] == c
    decreases |s|
  {
    if s == [] then 0
    else if s[0] == c then 0
    else
      var j := IndexOf(s[1..], c);
      assert s[..1 + j] == [s[0]] + s[1..][..j];
      1 + j
  }

  lemma IndexOfFound(s: string, c: char)
    ensures IndexOf(s, c) < |s| <==> c in s
  {
    var i := IndexOf(s, c);
    if i == |s| {
      assert s[..i] == s;
    }
  }

  /** The facts above pin the index down. */
  lemma IndexOfUnique(s: string, c: char, i: nat)
    requires i <= |s| && c !in s[..i] && (i < |s| ==> s[i] == c)
    ensures IndexOf(s, c) == i
    decreases i
  {
    if i > 0 {
      assert s[..i][0] == s[0];
      assert s[1..][..i - 1] == s[..i][1..];
      IndexOfUnique(s[1..], c, i - 1);
    }
  }

  predicate StartsWith(s: string, prefix: string) {
    |prefix| <= |s| && s[..|prefix|] == prefix
  }

  predicate OccursAt(s: string, sub: string, i: int) {
    0 <= i <= |s| - |sub| && s[i..i + |sub|] == sub
  }

  /** Python's `sub in s`. */
  function Contains(s: string, sub: string): bool
    decreases |s|
  {
    StartsWith(s, sub) || (s != [] && Contains(s[1..], sub))
  }

  /** `sub in s` holds exactly when `sub` occurs at some offset of `s`. */
  lemma {:induction false} ContainsIffOccurs(s: string, sub: string)
    ensures Contains(s, sub) <==> exists i :: OccursAt(s, sub, i)
    decreases |s|
  {
    if StartsWith(s, sub) {
      assert OccursAt(s, sub, 0);
    } else if s != [] {
      ContainsIffOccurs(s[1..], sub);
      forall i
        ensures OccursAt(s[1..], sub, i) <==> OccursAt(s, sub, i + 1)
      {
        if 0 <= i <= |s| - 1 - |sub| {
          assert s[1..][i..i + |sub|] == s[i + 1..i + 1 + |sub|];
        }
      }
      assert !OccursAt(s, sub, 0);
      assert forall i :: OccursAt(s, sub, i) ==> OccursAt(s[1..], sub, i - 1);
    } else {
      assert forall i :: !OccursAt(s, sub, i);
    }
  }

  /* ---------------------------------------------------------------------- */
  /* Lines: str.splitlines and "\n".join                                    */
  /* ---------------------------------------------------------------------- */

  /** The line boundaries recognised by Python's `str.splitlines`. */
  predicate IsLineBreak(c: char) {
    || c == '\n' || c == '\r' || c == '\U{0B}' || c == '\U{0C}'
    || c == '\U{1C}' || c == '\U{1D}' || c == '\U{1E}' || c == '\U{85}'
    || c == '\U{2028}' || c == '\U{2029}'
  }

  predicate NoLineBreak(s: string) {
    forall k | 0 <= k < |s| :: !IsLineBreak(s[k])
  }

  /** Index of the first line boundary in `s`, or `|s|` when there is none. */
  function FirstBreak(s: string): (i: nat)
    ensures i <= |s|
    ensures NoLineBreak(s[..i])
    ensures i < |s| ==> IsLineBreak(s[i])
    decreases |s|
  {
    if s == [] || IsLineBreak(s[0]) then 0
    else
      var j := FirstBreak(s[1..]);
      assert s[..1 + j] == [s[0]] + s[1..][..j];
      1 + j
  }

  /** Where the line after the boundary at `i` starts: `"\r\n"` is one boundary. */
  function NextLineStart(s: string, i: nat): (n: nat)
    requires i < |s| && IsLineBreak(s[i])
    ensures i < n <= |s|
  {
    if s[i] == '\r' && i + 1 < |s| && s[i + 1] == '\n' then i + 2 else i + 1
  }

  /** Python's `str.splitlines()`: the text between line boundaries, without
      the boundaries and without a trailing empty line. */
  function SplitLines(s: string): (lines: seq<string>)
    ensures forall k | 0 <= k < |lines| :: NoLineBreak(lines[k])
    ensures lines == [] <==> s == []
    decreases |s|
  {
    if s == [] then []
    else
      var i := FirstBreak(s);
      if i == |s| then
        assert s[..i] == s;
        [s]
      else
        [s[..i]] + SplitLines(s[NextLineStart(s, i)..])
  }

  /** Python's `sep.join(parts)`. */
  function Join(sep: string, parts: seq<string>): string
    decreases |parts|
  {
    if parts == [] then ""
    else if |parts| == 1 then parts[0]
    else parts[0] + sep + Join(sep, parts[1..])
  }

  lemma FirstBreakOfConcat(x: string, y: string)
    ensures FirstBreak(x + y) == if FirstBreak(x) < |x| then FirstBreak(x) else |x| + FirstBreak(y)
    decreases |x|
  {
    if x == [] {
      assert x + y == y;
    } else if !IsLineBreak(x[0]) {
      assert (x + y)[1..] == x[1..] + y;
      FirstBreakOfConcat(x[1..], y);
    }
  }

  /** A break-free line followed by `"\n"` is split off as one line. */
  lemma SplitLinesLeadingLine(x: string, rest: string)
    requires NoLineBreak(x)
    ensures SplitLines(x + "\n" + rest) == [x] + SplitLines(rest)
  {
    var s := x + "\n" + rest;
    FirstBreakOfConcat(x, "\n" + rest);
    assert x + ("\n" + rest) == s;
    assert FirstBreak(x) == |x| by {
      FirstBreakOfConcat(x, []);
      assert x + [] == x;
    }
    assert s[|x|] == '\n';
    assert s[..|x|] == x;
    assert s[|x| + 1..] == rest;
  }

  /** What `"\n".join(lines) + "\n"` is read back as by `splitlines()`:
      the same lines, as long as there is at least one. */
  lemma {:induction false} SplitLinesOfJoinedLines(lines: seq<string>)
    requires lines != []
    requires forall k | 0 <= k < |lines| :: NoLineBreak(lines[k])
    ensures SplitLines(Join("\n", lines) + "\n") == lines
    decreases |lines|
  {
    var x := lines[0];
    if |lines| == 1 {
      SplitLinesLeadingLine(x, "");
      assert Join("\n", lines) + "\n" == x + "\n" + "";
    } else {
      var rest := lines[1..];
      assert Join("\n", lines) + "\n" == x + "\n" + (Join("\n", rest) + "\n");
      SplitLinesLeadingLine(x, Join("\n", rest) + "\n");
      SplitLinesOfJoinedLines(rest);
      assert lines == [x] + rest;
    }
  }

  /** `"\n".join(lines)` starts with the first line and ends with the last. */
  lemma {:induction false} JoinEnds(lines: seq<string>)
    requires lines != []
    ensures StartsWith(Join("\n", lines), lines[0])
    ensures var j := Join("\n", lines);
            var last := lines[|lines| - 1];
            |last| <= |j| && j[|j| - |last|..] == last
    decreases |lines|
  {
    if |lines| > 1 {
      var rest := lines[1..];
      var j := Join("\n", lines);
      assert j == lines[0] + "\n" + Join("\n", rest);
      JoinEnds(rest);
      assert rest[|rest| - 1] == lines[|lines| - 1];
      assert j[|j| - |Join("\n", rest)|..] == Join("\n", rest);
    }
  }

  /** A final `"\n"` after a text that does not already end in a boundary
      adds no line: `splitlines` has no trailing empty line. */
  lemma {:induction false} SplitLinesDropsFinalNewline(x: string)
    requires x != [] && !IsLineBreak(x[|x| - 1])
    ensures SplitLines(x + "\n") == SplitLines(x)
    decreases |x|
  {
    var s := x + "\n";
    var i := FirstBreak(x);
    FirstBreakOfConcat(x, "\n");
    assert FirstBreak(s) == if i < |x| then i else |x| + FirstBreak("\n");
    if i == |x| {
      assert FirstBreak("\n") == 0;
      assert x[..i] == x;
      assert s[..|x|] == x;
      assert s[|x| + 1..] == [];
    } else {
      assert i < |x| - 1;
      assert s[..i] == x[..i];
      assert s[i] == x[i];
      assert s[i + 1] == x[i + 1];
      var n := NextLineStart(x, i);
      assert NextLineStart(s, i) == n;
      assert n < |x|;
      var y := x[n..];
      assert s[n..] == y + "\n";
      assert y[|y| - 1] == x[|x| - 1];
      SplitLinesDropsFinalNewline(y);
    }
  }

  /** One step of `splitlines` on a text whose first boundary is at `i`. */
  lemma SplitLinesAtBreak(s: string, i: nat)
    requires i == FirstBreak(s) && i < |s|
    ensures SplitLines(s) == [s[..i]] + SplitLines(s[NextLineStart(s, i)..])
  {
  }

  /** A text whose first boundary is at `i` keeps it when more text follows. */
  lemma BreakPrefixKept(a: string, b: string, i: nat)
    requires i == FirstBreak(a) && i < |a|
    ensures i == FirstBreak(a + b) && (a + b)[..i] == a[..i] && (a + b)[i] == a[i]
  {
    FirstBreakOfConcat(a, b);
  }

  /** Joining two texts with one `"\n"` splits into the lines of each, with at
      most one extra empty line between them (when `a` is empty or already
      ended on a boundary). */
  lemma {:induction false} SplitLinesOfNewlineJoin(a: string, b: string)
    ensures || SplitLines(a + "\n" + b) == SplitLines(a) + SplitLines(b)
            || SplitLines(a + "\n" + b) == SplitLines(a) + [""] + SplitLines(b)
    decreases |a|, 1
  {
    var i := FirstBreak(a);
    if a == [] {
      SplitLinesNewlineFirst(b);
    } else if i == |a| {
      assert a[..i] == a;
      SplitLinesSingle(a);
      SplitLinesLeadingLine(a, b);
    } else {
      SplitLinesOfNewlineJoinAtBreak(a, b, i);
    }
  }

  /** A text starting with `"\n"` has an empty first line. */
  lemma SplitLinesNewlineFirst(b: string)
    ensures SplitLines("" + "\n" + b) == SplitLines("") + [""] + SplitLines(b)
  {
    SplitLinesLeadingLine("", b);
  }

  /** A non-empty text without boundaries is one line. */
  lemma SplitLinesSingle(line: string)
    requires line != [] && NoLineBreak(line)
    ensures SplitLines(line) == [line]
  {
    FirstBreakOfConcat(line, []);
    assert line + [] == line;
    assert line[..|line|] == line;
  }

  lemma {:induction false} SplitLinesOfNewlineJoinAtBreak(a: string, b: string, i: nat)
    requires i == FirstBreak(a) && i < |a|
    ensures || SplitLines(a + "\n" + b) == SplitLines(a) + SplitLines(b)
            || SplitLines(a + "\n" + b) == SplitLines(a) + [""] + SplitLines(b)
    decreases |a|, 0
  {
    var s := a + "\n" + b;
    assert s == a + ("\n" + b);
    BreakPrefixKept(a, "\n" + b, i);
    if a[i] == '\r' && i + 1 == |a| {
      SplitLinesTrailingCarriageReturn(a, b, i);
    } else {
      var n := NextLineStart(a, i);
      assert NextLineStart(s, i) == n;
      var tail := a[n..];
      assert s[n..] == tail + "\n" + b;
      SplitLinesAtBreak(s, i);
      SplitLinesAtBreak(a, i);
      SplitLinesOfNewlineJoin(tail, b);
      SplitLinesPrepend(a[..i], SplitLines(tail), SplitLines(b), SplitLines(tail + "\n" + b));
    }
  }

  /** A lone `"\r"` ending `a` merges with the joining `"\n"` into one boundary. */
  lemma SplitLinesTrailingCarriageReturn(a: string, b: string, i: nat)
    requires i == FirstBreak(a) && i + 1 == |a| && a[i] == '\r'
    requires i == FirstBreak(a + "\n" + b) && (a + "\n" + b)[..i] == a[..i]
    ensures SplitLines(a + "\n" + b) == SplitLines(a) + SplitLines(b)
  {
    var s := a + "\n" + b;
    assert NextLineStart(s, i) == i + 2;
    assert s[i + 2..] == b;
    SplitLinesAtBreak(s, i);
    SplitLinesAtBreak(a, i);
    assert a[NextLineStart(a, i)..] == [];
  }

  lemma SplitLinesPrepend(head: string, tail: seq<string>, rest: seq<string>, mid: seq<string>)
    requires mid == tail + rest || mid == tail + [""] + rest
    ensures [head] + mid == ([head] + tail) + rest || [head] + mid == ([head] + tail) + [""] + rest
  {
  }

  /* ---------------------------------------------------------------------- */
  /* str.split(c) with a one-character separator                            */
  /* ---------------------------------------------------------------------- */

  /** Python's `s.split(c)`: the maximal `c`-free fields, in order. */
  function SplitOn(s: string, c: char): (fields: seq<string>)
    ensures |fields| >= 1
    ensures forall k | 0 <= k < |fields| :: c !in fields[k]
    decreases |s|
  {
    var i := IndexOf(s, c);
    if i == |s| then
      assert s[..i] == s;
      [s]
    else
      [s[..i]] + SplitOn(s[i + 1..], c)
  }

  /** Splitting loses nothing: the fields joined by the separator give back
      the text. */
  lemma {:induction false} JoinSplitOn(s: string, c: char)
    ensures Join([c], SplitOn(s, c)) == s
    decreases |s|
  {
    var i := IndexOf(s, c);
    if i == |s| {
      assert s[..i] == s;
    } else {
      var rest := s[i + 1..];
      var fields := SplitOn(rest, c);
      assert SplitOn(s, c) == [s[..i]] + fields;
      assert Join([c], SplitOn(s, c)) == s[..i] + [c] + Join([c], fields);
      JoinSplitOn(rest, c);
      assert s == s[..i] + [c] + rest;
    }
  }

  /** There is a second field exactly when the separator occurs. */
  lemma SplitOnHasSecondField(s: string, c: char)
    ensures |SplitOn(s, c)| >= 2 <==> c in s
  {
    IndexOfFound(s, c);
  }

  /* ---------------------------------------------------------------------- */
  /* str.strip()                                                            */
  /* ---------------------------------------------------------------------- */

  /** Python's `str.isspace()` for one character. */
  predicate IsSpace(c: char) {
    || c == ' ' || c == '\t' || c == '\n' || c == '\r' || c == '\U{0B}' || c == '\U{0C}'
    || ('\U{1C}' <= c <= '\U{1F}') || c == '\U{85}' || c == '\U{A0}' || c == '\U{1680}'
    || ('\U{2000}' <= c <= '\U{200A}') || c == '\U{2028}' || c == '\U{2029}'
    || c == '\U{202F}' || c == '\U{205F}' || c == '\U{3000}'
  }

  predicate AllSpace(s: string) {
    forall k | 0 <= k < |s| :: IsSpace(s[k])
  }

  /** `r` sits at offset `i` of `s` with only whitespace around it. */
  predicate SpaceFramed(s: string, r: string, i: int) {
    OccursAt(s, r, i) && AllSpace(s[..i]) && AllSpace(s[i + |r|..])
  }

  function LeadingSpaces(s: string): (n: nat)
    ensures n <= |s|
    ensures AllSpace(s[..n])
    ensures n < |s| ==> !IsSpace(s[n])
    decreases |s|
  {
    if s != [] && IsSpace(s[0]) then
      var m := LeadingSpaces(s[1..]);
      assert s[..1 + m] == [s[0]] + s[1..][..m];
      1 + m
    else 0
  }

  function TrailingSpaces(s: string): (n: nat)
    ensures n <= |s|
    ensures AllSpace(s[|s| - n..])
    ensures n < |s| ==> !IsSpace(s[|s| - n - 1])
    decreases |s|
  {
    if s != [] && IsSpace(s[|s| - 1]) then
      var p := s[..|s| - 1];
      var m := TrailingSpaces(p);
      assert s[|s| - (1 + m)..] == p[|p| - m..] + [s[|s| - 1]];
      1 + m
    else 0
  }

  /** Python's `str.strip()`: `s` without its leading and trailing whitespace. */
  function Strip(s: string): (r: string)
    ensures r == [] || (!IsSpace(r[0]) && !IsSpace(r[|r| - 1]))
  {
    var a := LeadingSpaces(s);
    var t := s[a..];
    t[..|t| - TrailingSpaces(t)]
  }

  /** What `strip` removes is whitespace on both sides and nothing else. */
  lemma StripIsFramed(s: string)
    ensures exists i :: SpaceFramed(s, Strip(s), i)
  {
    var a := LeadingSpaces(s);
    var t := s[a..];
    var b := TrailingSpaces(t);
    var r := t[..|t| - b];
    assert r == Strip(s);
    assert s[a..a + |r|] == r;
    assert AllSpace(s[..a]);
    assert s[a + |r|..] == t[|t| - b..];
    assert AllSpace(s[a + |r|..]);
    assert SpaceFramed(s, r, a);
  }

  /** A text that neither starts nor ends with whitespace is its own strip. */
  lemma StripUnframed(s: string)
    requires s == [] || (!IsSpace(s[0]) && !IsSpace(s[|s| - 1]))
    ensures Strip(s) == s
  {
    assert LeadingSpaces(s) == 0;
    assert s[0..] == s;
    assert TrailingSpaces(s) == 0;
    assert s[..|s|] == s;
  }

  lemma LeadingSpacesUnique(s: string, n: nat)
    requires n <= |s| && AllSpace(s[..n]) && (n < |s| ==> !IsSpace(s[n]))
    ensures LeadingSpaces(s) == n
    decreases n
  {
    if n > 0 {
      assert s[..n][0] == s[0];
      assert s[1..][..n - 1] == s[..n][1..];
      LeadingSpacesUnique(s[1..], n - 1);
    }
  }

  lemma TrailingSpacesUnique(s: string, n: nat)
    requires n <= |s| && AllSpace(s[|s| - n..]) && (n < |s| ==> !IsSpace(s[|s| - n - 1]))
    ensures TrailingSpaces(s) == n
    decreases n
  {
    if n > 0 {
      var p := s[..|s| - 1];
      assert s[|s| - n..][n - 1] == s[|s| - 1];
      assert p[|p| - (n - 1)..] == s[|s| - n..][..n - 1];
      TrailingSpacesUnique(p, n - 1);
    }
  }

  /** Whitespace around a text that neither starts nor ends with whitespace
      is exactly what `strip` removes. */
  lemma StripFramed(pre: string, t: string, post: string)
    requires AllSpace(pre) && AllSpace(post)
    requires t != [] && !IsSpace(t[0]) && !IsSpace(t[|t| - 1])
    ensures Strip(pre + t + post) == t
  {
    var s := pre + t + post;
    assert s[..|pre|] == pre;
    assert s[|pre|] == t[0];
    LeadingSpacesUnique(s, |pre|);
    var u := s[|pre|..];
    assert u == t + post;
    assert u[|u| - |post|..] == post;
    assert u[|u| - |post| - 1] == t[|t| - 1];
    TrailingSpacesUnique(u, |post|);
    assert u[..|u| - |post|] == t;
  }

  /* ---------------------------------------------------------------------- */
  /* int() and str() for integers                                           */
  /* ---------------------------------------------------------------------- */

  predicate IsDigit(c: char) {
    '0' <= c <= '9'
  }

  function DigitValue(c: char): nat
    requires IsDigit(c)
  {
    c as int - '0' as int
  }

  function DigitChar(d: nat): (c: char)
    requires d < 10
    ensures IsDigit(c) && DigitValue(c) == d
  {
    ('0' as int + d) as char
  }

  /** The digit part `int()` accepts in base 10: ASCII digits, with single
      underscores allowed between two digits. */
  predicate WellFormedDigits(b: string) {
    && |b| > 0
    && IsDigit(b[0])
    && IsDigit(b[|b| - 1])
    && (forall k | 0 <= k < |b| :: IsDigit(b[k]) || b[k] == '_')
    && (forall k | 0 <= k < |b| - 1 :: b[k] == '_' ==> b[k + 1] != '_')
  }

  /** The number the digits of `b` spell, underscores skipped. */
  function DigitsValue(b: string): nat
    requires forall k | 0 <= k < |b| :: IsDigit(b[k]) || b[k] == '_'
    decreases |b|
  {
    if b == [] then 0
    else
      var last := b[|b| - 1];
      var v := DigitsValue(b[..|b| - 1]);
      if last == '_' then v else 10 * v + DigitValue(last)
  }

  /** The ASCII information separators `\x1c`-`\x1f`. `str.isspace()` holds
      for them, but `int()` trims only the ASCII whitespace `" \t\n\v\f\r"`
      (other whitespace it first turns into a space), so a separator is never
      trimmed, and it is not part of a number either. */
  predicate IsInfoSeparator(c: char) {
    '\U{1C}' <= c <= '\U{1F}'
  }

  predicate NoInfoSeparator(s: string) {
    forall k | 0 <= k < |s| :: !IsInfoSeparator(s[k])
  }

  /** Python's `int(s)`: `None` stands for the `ValueError` it raises. */
  function ParseInt(s: string): (r: Option<int>)
    ensures !NoInfoSeparator(s) ==> r == None
    ensures r.Some? ==> Strip(s) != [] && IsDigit(Strip(s)[|Strip(s)| - 1])
    ensures r.Some? ==> forall k | 0 <= k < |Strip(s)| ::
              || IsDigit(Strip(s)[k]) || Strip(s)[k] == '_'
              || (k == 0 && (Strip(s)[0] == '+' || Strip(s)[0] == '-'))
  {
    var t := Strip(s);
    if !NoInfoSeparator(s) then None
    else if t != [] && (t[0] == '-' || t[0] == '+') then
      var body := t[1..];
      if WellFormedDigits(body) then
        var v: int := DigitsValue(body);
        Some(if t[0] == '-' then -v else v)
      else None
    else if WellFormedDigits(t) then Some(DigitsValue(t))
    else None
  }

  function NatToString(n: nat): (r: string)
    ensures r != []
    ensures forall k | 0 <= k < |r| :: IsDigit(r[k])
    decreases n
  {
    if n < 10 then [DigitChar(n)]
    else NatToString(n / 10) + [DigitChar(n % 10)]
  }

  /** Python's `str(n)` for an integer `n`. */
  function IntToString(n: int): string {
    if n < 0 then "-" + NatToString(-n) else NatToString(n)
  }

  lemma {:induction false} DigitsValueOfNatToString(n: nat)
    ensures WellFormedDigits(NatToString(n))
    ensures DigitsValue(NatToString(n)) == n
    decreases n
  {
    var r := NatToString(n);
    if n >= 10 {
      DigitsValueOfNatToString(n / 10);
      assert r[..|r| - 1] == NatToString(n / 10);
    }
  }

  /** `str(n)` is a sign and digits: no whitespace of any kind. */
  lemma IntToStringNoInfoSeparator(n: int)
    ensures NoInfoSeparator(IntToString(n))
  {
    var d := NatToString(if n < 0 then -n else n);
    assert forall k | 0 <= k < |d| :: IsDigit(d[k]);
    assert n < 0 ==> IntToString(n) == "-" + d;
  }

  lemma IntToStringNoNewline(n: int)
    ensures '\n' !in IntToString(n)
  {
    var d := NatToString(if n < 0 then -n else n);
    assert forall k | 0 <= k < |d| :: IsDigit(d[k]);
    assert n < 0 ==> IntToString(n) == "-" + d;
  }

  /** `int(str(n)) == n`: the decimal text written for a number reads back
      as that number. */
  lemma ParseIntOfIntToString(n: int)
    ensures ParseInt(IntToString(n)) == Some(n)
  {
    var s := IntToString(n);
    var digits := NatToString(if n < 0 then -n else n);
    DigitsValueOfNatToString(if n < 0 then -n else n);
    IntToStringNoInfoSeparator(n);
    StripUnframed(s);
    assert Strip(s) == s;
    if n < 0 {
      assert s == "-" + digits;
      assert s[1..] == digits;
    } else {
      assert s == digits && WellFormedDigits(s);
    }
  }

  /* ---------------------------------------------------------------------- */
  /* bytes.decode("ascii")                                                  */
  /* ---------------------------------------------------------------------- */

  newtype byte = b: int | 0 <= b < 256

  predicate IsAscii(bs: seq<byte>) {
    forall k | 0 <= k < |bs| :: bs[k] < 128
  }

  /** Python's `bs.decode("ascii")`: `None` stands for the `UnicodeDecodeError`. */
  function DecodeAscii(bs: seq<byte>): (r: Option<string>)
    ensures r.Some? <==> IsAscii(bs)
    ensures r.Some? ==> |r.value| == |bs| && forall k | 0 <= k < |bs| :: r.value[k] as int == bs[k] as int
    decreases |bs|
  {
    if bs == [] then Some("")
    else if bs[0] >= 128 then None
    else
      match DecodeAscii(bs[1..])
      case None => None
      case Some(rest) => Some([bs[0] as int as char] + rest)
  }
}
